=== FILE: README.md ===
# EV charging pipeline core, modelled in Dafny

This project models the deterministic core of a batch pipeline. The pipeline
turns a traffic simulation's event log into per-vehicle day timetables and
then into quarter-hour slot profiles. The core has four parts:

- **Event stream reducer** (`parse_events`), module `Events`. It is a single
  left fold over decoded events. Its state is the open trips by vehicle, the
  open activities by person, and the person/vehicle binding maps. It emits
  completed `Trip` and `ActivityEvent` records and counts the trips still
  open at the end.
- **Episode stitcher** (`build_timetable`), module `Timetable`. Each
  vehicle's trips become an alternating sequence of parked and driving
  episodes over the day [0, 86400). Vehicles are grouped in increasing id
  order, and the result is stably sorted by (vehicle id, start time).
- **Activity matchers**, modules `Clock`, `Plans` and `Matching`. Both
  versions are modelled:
  - `_match_activities` in timetable_builder.py has no time window, and its
    driving rows get no activity type.
  - `match_activities_to_timetable` in plans_parser.py takes only activities
    that start strictly inside the parking window, and its driving rows are
    "unknown".
  - Each comes with its own `_to_seconds` and its own `parse_plans` selection
    and filtering, which runs over an abstract person/plan/element tree. The
    datatype `Plans.Variant` names the two copies.
- **Slot binning** (`build_discharge_profile`), module `Discharge`. It covers
  the 96 slots of 900 s, the integer overlap of an episode with each slot,
  the majority-rule parked flag, and proportional energy at 0.15 kWh/km.

`Common` holds shared vocabulary:
- `Option` and `Result`;
- the ":car" naming convention and `str.replace`;
- the code-point order on strings;
- the sorted distinct keys that `groupby` visits.

Modelling choices:
- Times are integer seconds.
- Distances, coordinates and energy are `real`.
- A Python `None` or `NaN` is `Option.None`.
- An exception that ends the run is an `Err`:
  - a `KeyError` for a missing required event attribute;
  - a `KeyError` when `parse_plans` or `build_timetable` gets no rows at all;
  - an `IndexError` when a binned slot falls below -96.
- The link length table and the network's links and nodes are plain `map`
  inputs.

## Model

| member | source | states |
|---|---|---|
| Common.RemoveCarSuffix | timetable_builder.py:307-308 | Removing every ":car" from "<p>:car" gives back p whenever p itself holds no ":car", so a car's driver id is recovered from its vehicle id |
| Common.SortedKeys | timetable_builder.py:219 | The group keys are strictly increasing in code-point order and are exactly the distinct vehicle ids present |
| Events.Decode | events_parser.py:122-219 | Decoding fails exactly when one of the type's required attributes is missing (person and vehicle for boarding; vehicle and link for entering and leaving traffic; person for activity start and end), and the error names the first missing one in that order. A decoded event keeps the time and type, and every required attribute and every optional one present (vehicle and link of `entered link`, type and link of `actstart`) with its value. Any other type becomes the ignored case with its time kept |
| Events.ActStartDefaults | events_parser.py:207-211 | An activity start with a person always decodes, keeping its time and person; its type is the `actType` attribute when present and "unknown" otherwise, and independently its link is the `link` attribute when present and "unknown" otherwise |
| Events.LinkEnteredMissing | events_parser.py:170-177 | A link event without a vehicle or a link still decodes, with the missing attribute absent |
| Events.DecodeEncode | events_parser.py:122-219 | Decoding the element an event is written as gives the event back |
| Events.DecodeAll | events_parser.py:113-123 | The whole log decodes exactly when every element does, element by element in order |
| Events.ParseEvents | events_parser.py:62-243 | The parse fails exactly when some element is malformed |
| Events.Finish | events_parser.py:233-243 | The reported stuck-trip count is the number of vehicles still on an open trip; completed trips and activities are returned as accumulated |
| Events.StepBoarding | events_parser.py:126-136 | Only the first boarding of a ":car" vehicle binds driver and vehicle in both maps; a later boarding of a bound car, or any boarding of a non-car, changes nothing |
| Events.StepEntersTraffic | events_parser.py:140-167 | A car admitted by the filter gets a fresh open trip (driver or the vehicle id itself, distance 0, from and current link the entry link), replacing any trip already open; other vehicles change nothing; an empty or absent filter admits every car |
| Events.StepLinkEntered | events_parser.py:170-182 | Entering a known link adds its length to the vehicle's open trip and makes that link the trip's current link, keeping its driver, vehicle, start and origin; no other vehicle's open trip and no other part of the state changes. A missing attribute, a vehicle without an open trip or an unknown link changes nothing |
| Events.StepLeavesTraffic | events_parser.py:186-200 | Leaving traffic closes the open trip into a Trip with the open trip's driver, start, distance and origin, this event's time as end and its link as destination; without an open trip nothing changes |
| Events.StepActivities | events_parser.py:207-229 | An activity start overwrites the person's open activity and emits nothing. An activity end with an open activity emits one ActivityEvent typed, located and started by that activity and ending at this time, and removes the person's open activity. With nothing open an end changes nothing. Trips and bindings are untouched either way |
| Events.SecondEndEmitsNothing | events_parser.py:216-228 | A second activity end with no start in between emits nothing, because the first end popped the open activity |
| Events.StepIgnored | events_parser.py:122-231 | An event of an unrecognised type leaves the whole state unchanged |
| Events.RunExtends | events_parser.py:103-104 | Over any stretch of events, trips and activities are only ever appended to |
| Events.RunDistancesNonNegative | events_parser.py:56 | With non-negative link lengths every open and closed trip keeps a non-negative distance |
| Events.ParsedTripsTracked | events_parser.py:132-152 | Every parsed trip is of a ":car" vehicle admitted by the filter, every person is bound to a ":car" vehicle, and with non-negative link lengths every trip's distance is non-negative |
| Events.ParsedTimesOrdered | events_parser.py:161-228 | For a log in non-decreasing time order, every trip and every activity ends no earlier than it starts |
| Events.DriverBindingPersists | events_parser.py:132-136 | Once a car's driver is bound, no later event changes the binding |
| Events.OpenTripAccumulates | events_parser.py:170-182 | While no event closes or reopens the trip, its distance grows by exactly the sum of the lengths of the known links the vehicle enters, and its driver, start and origin stay fixed |
| Events.TripFromSegment | events_parser.py:154-200 | An entry, events that keep the trip open, and an exit produce the Trip with the driver at entry, the entry and exit times and links, and the summed link lengths |
| Events.NoExitNoTrip | events_parser.py:186-200 | Without a leave-traffic event for a vehicle no trip of that vehicle is emitted and its open trip stays open |
| Events.StuckTripCounted | events_parser.py:233-235 | A trip entered and never left produces no Trip and is counted among the stuck trips |
| Events.OneTripExample | events_parser.py:140-200 | Entering at 3600 s on L1, entering L2 (500 m) and leaving on L2 at 3700 s gives exactly one 500 m trip from L1 to L2 |
| Timetable.StitchShape | timetable_builder.py:222-272 | The episodes are, in order: a leading parked episode [0, first start) at the first origin exactly when the first trip starts after 0; one driving episode per trip copying its times and distance; a parked episode at the previous destination between each two trips (even when empty); and a trailing parked episode [last end, 86400) exactly when the last trip ends before 86400. So there are 2N-1 + [first start > 0] + [last end < 86400] episodes |
| Timetable.StitchDrivings | timetable_builder.py:235-246 | The driving episodes are exactly one per trip, in trip order, each with the trip's start, end and distance |
| Timetable.StitchTiles | timetable_builder.py:219-272 | For trips in time order, not overlapping and inside the day, the episodes tile [0, 86400) contiguously |
| Timetable.GroupOf | timetable_builder.py:219-220 | A vehicle's group holds only its own trips and is non-empty exactly when the vehicle has a trip |
| Timetable.GroupOfConcat | timetable_builder.py:219-220 | Grouping splits over concatenation, so a group is the in-order sub-list of the vehicle's trips, duplicates included |
| Timetable.GroupOfMembers | timetable_builder.py:219-220 | A trip is in a vehicle's group exactly when it is one of the input trips and belongs to that vehicle |
| Timetable.GroupsPartition | timetable_builder.py:219-220 | Over distinct keys naming every vehicle, the groups together hold each trip exactly as often as the input does |
| Timetable.GroupsOfTrips | timetable_builder.py:219-220 | The groups visited in sorted vehicle-id order are a permutation of the trips |
| Timetable.TimetableDrivings | timetable_builder.py:219-275 | For a non-empty trip table, the built timetable's driving episodes are, up to order, one per trip with the trip's vehicle, times and distance, so there are exactly as many as trips |
| Timetable.RecordsGrouped | timetable_builder.py:219-272 | Before sorting, a vehicle's records are the stitched episodes of its own trips in input order, and a vehicle without trips has none |
| Timetable.SortByKey | timetable_builder.py:275 | The sorted timetable is a permutation of the records, ordered by (vehicle id, start time) |
| Timetable.InsertByKey | timetable_builder.py:275 | Inserting keeps the multiset and the (vehicle id, start time) order |
| Timetable.SortByKeySorted | timetable_builder.py:275 | Sorting a timetable already in (vehicle id, start time) order leaves it unchanged |
| Timetable.SortByKeyStable | timetable_builder.py:275 | The sort is stable: for every (vehicle id, start time) key, the episodes with that key appear in the sorted table in their record order |
| Timetable.BuildTimetable | timetable_builder.py:217-275 | Building fails exactly when there are no trips; otherwise the result is a permutation of the stitched records in (vehicle id, start time) order, and episodes with equal keys keep their record order |
| Timetable.TimetableOfWellFormed | timetable_builder.py:219-275 | When every vehicle's trips are in order, not overlapping and inside the day, the sort changes nothing and each vehicle's episodes tile [0, 86400) |
| Timetable.OneTripStitchExample | timetable_builder.py:222-272 | One trip from L1 to L2 between 3600 s and 3700 s gives parked [0, 3600) at L1, driving [3600, 3700) with 500 m, parked [3700, 86400) at L2 |
| Clock.Split | timetable_builder.py:190 | Splitting on ":" gives at least one field and no field contains ":" |
| Clock.JoinSplit | timetable_builder.py:190 | Joining the split fields with ":" gives back the string |
| Clock.ParseNumeral | timetable_builder.py:191 | `int()` reads back the numeral of every natural number |
| Clock.ParseDigits | timetable_builder.py:191 | `int()` reads any run of decimal digits, leading zeros included, as its decimal value |
| Clock.ParseSigned | timetable_builder.py:191 | A leading "-" in front of digits negates their value and a leading "+" keeps it |
| Clock.ParsePadded | timetable_builder.py:191 | Whitespace around a field does not change what `int()` reads |
| Clock.ParseIntChars | timetable_builder.py:191 | `int()` reads nothing from a string holding a character other than a digit, a sign, an underscore or whitespace |
| Clock.BlankUnreadable | timetable_builder.py:191 | An empty or all-whitespace field is not an integer |
| Clock.FromFieldsRead | timetable_builder.py:191 | Three fields give seconds exactly when each is an integer, and then the value is h*3600 + m*60 + s |
| Clock.ClockReadable | timetable_builder.py:181-193 | The lenient variant reads a string exactly when its stripped form has at least three fields and the first three are integers; the exact variant reads it exactly when, in addition, there are exactly three fields; otherwise both give no value |
| Clock.ClockFields | timetable_builder.py:181-193 | Three colon-free fields joined by colons, with whitespace around, are read by both variants as the seconds of those three fields, or not at all when one is not an integer |
| Clock.FieldUnreadable | plans_parser.py:106-113 | A clock string one of whose first three fields is not an integer reads as no value in both variants |
| Clock.BadCharUnreadable | plans_parser.py:106-113 | A clock string whose first three fields hold a character `int()` cannot read, such as a decimal point or a letter, reads as no value in both variants |
| Clock.ClockFieldsExtra | plans_parser.py:106-113 | Three colon-free fields followed by a further field: the exact variant gives no value, and the lenient one reads the first three fields as if alone |
| Clock.ClockNumerals | timetable_builder.py:181-193 | The clock string written with the numerals of h, m and s reads back as h*3600 + m*60 + s in both variants |
| Clock.ToSecondsExact | timetable_builder.py:181-193 | No string gives no value, and a value is only produced for exactly three fields |
| Clock.ToSecondsLenient | plans_parser.py:100-113 | No string gives no value, and a value is only produced for at least three fields |
| Clock.ClockRoundTrip | timetable_builder.py:181-193 | Both variants read "h:m:s" written with any digit runs (leading zeros allowed, hours past 23 included) and surrounded by any whitespace as h*3600 + m*60 + s |
| Clock.ExtraFieldsDiffer | plans_parser.py:108-111 | After three digit-run fields, any further colon and text make the exact variant give no value while the lenient one still reads the first three as h*3600 + m*60 + s |
| Clock.ExactImpliesLenient | plans_parser.py:100-113 | Whenever the exact variant reads a value the lenient one reads the same, and on three-field strings they agree |
| Plans.SelectedIndex | plans_parser.py:52-60 | The chosen plan is the first whose selected attribute is "yes"; none is chosen exactly when no plan is marked |
| Plans.Rows | plans_parser.py:62-86 | A plan gives at most one row per element; every row carries the person's id and a type outside the ignored set |
| Plans.ParsePlans | plans_parser.py:43-97 | Parsing fails exactly when no person contributes any row; otherwise the table is the persons' rows concatenated in person order, and it is non-empty |
| Plans.RowsConcat | plans_parser.py:62-86 | The rows of a concatenation of elements are the rows of each part concatenated, so the rows follow element order |
| Plans.RowsOne | plans_parser.py:62-86 | One element gives exactly its row when it is a kept activity and none otherwise; one person's table is that person's rows |
| Plans.AllRowsConcat | plans_parser.py:43-97 | The table of a concatenation of persons is the tables of each part concatenated, so rows follow person order |
| Plans.RowsMembers | plans_parser.py:62-86 | A row belongs to a plan's rows exactly when some activity element with a non-ignored type produces it |
| Plans.RowsFromSelectedPlans | timetable_builder.py:138-168 | Every row comes from the first selected plan of some person and carries that person's id |
| Plans.AllRowsMembers | timetable_builder.py:138-168 | A row is in the table exactly when it is among some person's rows |
| Plans.KeptElementsListed | timetable_builder.py:141-168 | Every kept activity of a person's first selected plan appears in the table as that person's row, and the table is then not an error |
| Plans.OnlyFirstSelectedPlan | timetable_builder.py:142-147 | Plans after the first selected one are never looked at |
| Plans.KeptVariants | plans_parser.py:19 | The builder's copy keeps only activities the other keeps, and they differ exactly on "car_passenger interaction" |
| Plans.StartTimeRead | timetable_builder.py:167-173 | In both copies a missing start time, or one whose first three fields are not all integers, becomes 0, and a clock string of digit runs (leading zeros, surrounding whitespace, hours past 23 allowed) becomes its seconds |
| Plans.EndTimeRead | plans_parser.py:76-91 | Only the plans_parser.py copy keeps end times; there a missing or unreadable one stays absent and a clock string of digit runs with surrounding whitespace becomes its seconds |
| Plans.ExtraFieldStartTime | plans_parser.py:84-91 | A start time of three digit-run fields followed by a fourth is 0 for the builder's copy and the seconds of the first three for the other |
| Matching.FirstCandidate | plans_parser.py:176-200 | The chosen plan row is the first in plans order that matches the driver, the link and, for the windowed copy, the strict window; none is chosen exactly when no row matches |
| Matching.Enrich | timetable_builder.py:296-352 | Driving rows get no person and no coordinates, with no activity type (builder copy) or "unknown" (plans_parser.py copy). A parked row gets the driver id. With a candidate it takes the first candidate's type and coordinates; without one it is "unknown" with the link's end-node coordinates when link and node resolve, and none otherwise |
| Matching.MatchActivities | plans_parser.py:153-212 | Every row is enriched in order; the matched count is the number of parked rows with a candidate, and matched plus unmatched is the number of parked rows |
| Matching.CarDriverMatches | plans_parser.py:159-185 | A plan row of person p on the episode's link matches the parked episode of car "p:car" in the builder copy, and in the windowed copy exactly when it starts strictly inside the window |
| Matching.WindowedMatchIsMatch | plans_parser.py:182-185 | A parked episode the windowed copy matches is matched by the builder copy too |
| Matching.WindowedMatchesFewer | plans_parser.py:167-203 | Over any timetable the windowed copy matches no more parked rows than the builder copy |
| Matching.AgreeInsideWindow | timetable_builder.py:327-341 | When every candidate of a parked episode starts strictly inside its window, the two copies enrich it alike |
| Matching.WindowEdgeExample | plans_parser.py:182-185 | An activity starting exactly when parking starts is taken by the builder copy and rejected by the windowed one, which falls back to "unknown" |
| Matching.FallbackExample | timetable_builder.py:343-352 | An unmatched parked episode on a link whose end node is known takes that node's coordinates and type "unknown" |
| Discharge.Clip | discharge_profile.py:56-57 | The overlap of an episode with a slot is between 0 and 900 s |
| Discharge.SlotLast | discharge_profile.py:45 | The last slot binned is always a valid slot below 96 |
| Discharge.TouchedSlots | discharge_profile.py:44-57 | For an episode inside the day, the slots it is binned into are exactly those it overlaps, so an episode ending on a boundary adds nothing to the next slot |
| Discharge.OutsideRangeNothing | discharge_profile.py:44-57 | An episode starting at or after midnight has no overlap with a slot outside its binned range |
| Discharge.AddEpisodeCells | discharge_profile.py:48-71 | Binning one episode that starts at or after midnight raises nothing and adds its overlap (parked or driving) and energy share to every slot |
| Discharge.SlotsAreTotals | discharge_profile.py:33-71 | A vehicle's slots are the sums of its episodes' contributions |
| Discharge.TiledDayFillsSlots | discharge_profile.py:48-63 | If a vehicle's episodes tile [0, 86400), parked plus driving seconds make 900 in every slot |
| Discharge.PipelineFillsSlots | discharge_profile.py:30-63 | For trips in order, not overlapping and inside the day, every vehicle of the built timetable has 900 recorded seconds in each slot |
| Discharge.EnergyConserved | discharge_profile.py:62-71 | A driving episode of positive duration inside the day spreads exactly distance/1000 × 0.15 kWh over the slots |
| Discharge.NoEnergyWithoutDriving | discharge_profile.py:62-71 | Parked episodes and zero-duration driving episodes add no energy |
| Discharge.SlotEnergyNonNegative | discharge_profile.py:62-71 | With non-negative distances no slot's energy is negative |
| Discharge.FlagMajority | discharge_profile.py:74-79 | A slot is flagged parked exactly when its parked time is at least its driving time, so ties and empty slots count as parked |
| Discharge.ProfileRows | discharge_profile.py:74-88 | Row k of the i-th vehicle names that vehicle, slot k, covers [900 k, 900 (k + 1)), and carries the majority flag of the vehicle's parked and driving seconds in slot k and that slot's energy |
| Discharge.ProfileRowValues | discharge_profile.py:30-88 | For a timetable starting at or after midnight, row 96 i + k of the profile is vehicle i's slot k with the flag and energy summed over exactly that vehicle's episodes |
| Discharge.BuildDischargeProfile | discharge_profile.py:27-90 | The profile has 96 rows per distinct vehicle |
| Discharge.ProfileSucceeds | discharge_profile.py:44-60 | A timetable whose episodes all start at or after midnight is binned without error |
| Discharge.EpisodeFails | discharge_profile.py:44-60 | Binning one episode raises an index error exactly when its slot range is non-empty and starts below -96; an empty range raises nothing however early it starts |
| Discharge.EpisodesFail | discharge_profile.py:33-60 | Binning a vehicle's episodes fails exactly when one of them has such a range |
| Discharge.ProfileFails | discharge_profile.py:27-60 | The whole profile fails exactly when some episode of the timetable, of whichever vehicle, has such a range |
| Discharge.FarNegativeStartFails | discharge_profile.py:44-60 | An episode from -90000 s to 100 s reaches slot -100 and raises an index error |
| Discharge.EmptyFarNegativeOk | discharge_profile.py:44-60 | An episode from -90000 s to -90000 s starts in slot -100 too, but its range is empty and it raises nothing |

## Left out

- XML and gzip reading (`ET.iterparse`, `ET.parse`, `gzip.open`, `elem.clear`) is left out. Events arrive as a sequence of `RawEvent` (type, time, attributes); plans arrive as a person/plan/element tree.
- Number parsing of attributes is left out. Event times, plan coordinates and link lengths arrive already numeric, so the `ValueError` that `float()` raises on a malformed `time`, `x` or `y` is not modelled.
- Times are integer seconds instead of floats: fractional event times are not represented.
- Clock.ParseInt: accepts ASCII digits only. Python's `int()` also accepts other Unicode decimal digits.
- ParseDigits: digit groups separated by underscores ("1_000") are read by `Clock.ParseInt` as `int()` reads them, but no lemma states their value.
- ParseDigits: Python versions that limit integer string conversion (3.11 onward, 4300 digits by default, leading zeros counted) make `int()` refuse longer digit runs; the model reads digit runs of any length.
- ParseNumeral: the same 4300-digit limit is not modelled; the numeral of every natural number is read.
- ParseSigned: the same 4300-digit limit is not modelled.
- FromFieldsRead: the seconds are exact integers, while both `_to_seconds` copies return `float(h*3600 + m*60 + s)` (timetable_builder.py:191, plans_parser.py:111). Rounding of values above 2^53 is not modelled, and neither is the `OverflowError` that `float()` raises for values past the double range (about 1.8 × 10^308), which the copies turn into NaN.
- ClockReadable: the seconds are exact integers, while both `_to_seconds` copies return `float(h*3600 + m*60 + s)` (timetable_builder.py:191, plans_parser.py:111). Rounding of values above 2^53 is not modelled, and neither is the `OverflowError` that `float()` raises for values past the double range (about 1.8 × 10^308), which the copies turn into NaN, so a huge value is "readable" here but NaN in the source.
- ClockFields: the seconds are exact integers, while both `_to_seconds` copies return `float(h*3600 + m*60 + s)` (timetable_builder.py:191, plans_parser.py:111). Rounding of values above 2^53 is not modelled, and neither is the `OverflowError` that `float()` raises for values past the double range (about 1.8 × 10^308), which the copies turn into NaN.
- ClockFieldsExtra: the seconds are exact integers, while both `_to_seconds` copies return `float(h*3600 + m*60 + s)` (timetable_builder.py:191, plans_parser.py:111). Rounding of values above 2^53 is not modelled, and neither is the `OverflowError` that `float()` raises for values past the double range (about 1.8 × 10^308), which the copies turn into NaN.
- ClockNumerals: the seconds are exact integers, while both `_to_seconds` copies return `float(h*3600 + m*60 + s)` (timetable_builder.py:191, plans_parser.py:111). Rounding of values above 2^53 is not modelled, and neither is the `OverflowError` that `float()` raises for values past the double range (about 1.8 × 10^308), which the copies turn into NaN.
- ClockRoundTrip: the seconds are exact integers, while both `_to_seconds` copies return `float(h*3600 + m*60 + s)` (timetable_builder.py:191, plans_parser.py:111). Rounding of values above 2^53 is not modelled, and neither is the `OverflowError` that `float()` raises for values past the double range (about 1.8 × 10^308), which the copies turn into NaN.
- ExtraFieldsDiffer: the seconds are exact integers, while both `_to_seconds` copies return `float(h*3600 + m*60 + s)` (timetable_builder.py:191, plans_parser.py:111). Rounding of values above 2^53 is not modelled, and neither is the `OverflowError` that `float()` raises for values past the double range (about 1.8 × 10^308), which the copies turn into NaN.
- StartTimeRead: the seconds are exact integers, while both `_to_seconds` copies return `float(h*3600 + m*60 + s)` (timetable_builder.py:191, plans_parser.py:111). Rounding of values above 2^53 is not modelled, and neither is the `OverflowError` that `float()` raises for values past the double range (about 1.8 × 10^308), which the copies turn into NaN, and then 0 once `fillna` runs.
- EndTimeRead: the seconds are exact integers, while both `_to_seconds` copies return `float(h*3600 + m*60 + s)` (timetable_builder.py:191, plans_parser.py:111). Rounding of values above 2^53 is not modelled, and neither is the `OverflowError` that `float()` raises for values past the double range (about 1.8 × 10^308), which the copies turn into NaN.
- ExtraFieldStartTime: the seconds are exact integers, while both `_to_seconds` copies return `float(h*3600 + m*60 + s)` (timetable_builder.py:191, plans_parser.py:111). Rounding of values above 2^53 is not modelled, and neither is the `OverflowError` that `float()` raises for values past the double range (about 1.8 × 10^308), which the copies turn into NaN, and then 0 once `fillna` runs.
- Rounding of the slot energy to 6 decimals (discharge_profile.py:87) is left out. It is a float presentation step; energy here is an exact `real`.
- `print` output, the module-level parquet load (discharge_profile.py:24) and the debug parquet write (timetable_builder.py:281) are left out. Stuck-trip and matched/unmatched counts are returned instead.
- The enrichment branch inside `build_timetable` (timetable_builder.py:278-282) is only the composition `Plans.ParsePlans(InBuilder, …)` then `Matching.MatchActivities(InBuilder, …)`, so it has no member of its own.
- Matching.Enrich: a parked row's link id is used as a string directly. Python's `str()` turns a missing link into "nan", but a parked episode always has a link in this model.
- Matching.MatchActivities: the input timetable is a value. The copy at plans_parser.py:153, which keeps the input frame from being changed, holds by construction and is not stated.
- Episode types other than parked and driving cannot occur in the model, so the branch that ignores them (discharge_profile.py:59-63) has nothing to do.
- network_parser.py, optimize.py, prepare_profiles.py, plot_results.py, run_pipeline.py and the diagnostic scripts are not part of this model. They cover XML ingestion, an external MIP solver, spreadsheet interpolation, plotting and orchestration.
- The commented-out copy of the builder (timetable_builder.py:1-101) is not modelled.

## Behaviour as the code has it

In these places the code behaves differently from what its docstrings lead one to expect. The model follows the code:

- A second "vehicle enters traffic" for a car that already has an open trip replaces that trip, and the first is lost (events_parser.py:161). It is not ignored.
- A trip's end is never earlier than its start for an ordered log, but it can equal it (`Events.ParsedTimesOrdered`). The code does not enforce a strict inequality.
- Activities still open at the end of the log are dropped without a count. Only open trips are counted.
- `build_timetable` does not sort a vehicle's trips by start time. It stitches them in input order (timetable_builder.py:219-235), and only the final table is sorted by (vehicle id, start time). That sort is stable (`Timetable.SortByKeyStable`).
- One vehicle gets between 2N-1 and 2N+1 episodes, not N+1 to 2N+1. The gap episode between two trips is always emitted.
- `_match_activities` applies no time window (timetable_builder.py:332), although its docstring (line 292) describes one. Only the plans_parser.py copy filters by window.

=== FILE: clock.dfy ===
/** Clock strings of the plans file ("HH:MM:SS", hours may exceed 23) turned
    into seconds from midnight, in the two variants the pipeline carries: the
    exact one that wants three fields and the lenient one that reads the
    first three and ignores the rest. An absent or unreadable string gives
    `None` (Python `NaN`). */
module Clock {
  import opened Common

  /** Python's `str.isspace()`. */
  predicate IsSpace(c: char) {
    || ('\t' <= c <= '\r')
    || ('\U{1C}' <= c <= '\U{1F}')
    || c == ' ' || c == '\U{85}' || c == '\U{A0}' || c == '\U{1680}'
    || ('\U{2000}' <= c <= '\U{200A}')
    || c == '\U{2028}' || c == '\U{2029}' || c == '\U{202F}' || c == '\U{205F}' || c == '\U{3000}'
  }

  predicate IsDigit(c: char) {
    '0' <= c <= '9'
  }

  /** A non-empty run of decimal digits, leading zeros allowed. */
  predicate Digits(d: string) {
    |d| > 0 && forall i :: 0 <= i < |d| ==> IsDigit(d[i])
  }

  /** Nothing but whitespace (possibly nothing at all). */
  predicate Blank(w: string) {
    forall i :: 0 <= i < |w| ==> IsSpace(w[i])
  }

  /** Starts and ends with a non-space character. */
  predicate Unpadded(x: string) {
    |x| > 0 && !IsSpace(x[0]) && !IsSpace(x[|x| - 1])
  }

  function TrimStart(s: string): (r: string)
    ensures |r| <= |s| && r == s[|s| - |r|..]
    ensures |r| > 0 ==> !IsSpace(r[0])
    decreases |s|
  {
    if |s| > 0 && IsSpace(s[0]) then TrimStart(s[1..]) else s
  }

  function TrimEnd(s: string): (r: string)
    ensures |r| <= |s| && r == s[..|r|]
    ensures |r| > 0 ==> !IsSpace(r[|r| - 1])
    decreases |s|
  {
    if |s| > 0 && IsSpace(s[|s| - 1]) then TrimEnd(s[..|s| - 1]) else s
  }

  /** `str.strip()`: the longest inner part without surrounding whitespace. */
  function Strip(s: string): (r: string)
    ensures |r| > 0 ==> !IsSpace(r[0]) && !IsSpace(r[|r| - 1])
  {
    var t := TrimStart(s);
    var r := TrimEnd(t);
    assert |r| > 0 ==> r[0] == t[0];
    r
  }

  /** `s.split(":")`: the fields between colons; always at least one. */
  function Split(s: string): (r: seq<string>)
    ensures |r| >= 1
    ensures forall i :: 0 <= i < |r| ==> ':' !in r[i]
    decreases |s|
  {
    if |s| == 0 then [""]
    else
      var rest := Split(s[1..]);
      if s[0] == ':' then [""] + rest
      else [[s[0]] + rest[0]] + rest[1..]
  }

  /** Joins fields with colons, the inverse of `Split`. */
  function Join(fields: seq<string>): string
    requires |fields| >= 1
    decreases |fields|
  {
    if |fields| == 1 then fields[0] else fields[0] + ":" + Join(fields[1..])
  }

  /** Splitting and joining again gives back the string. */
  lemma {:induction false} JoinSplit(s: string)
    ensures Join(Split(s)) == s
    decreases |s|
  {
    if |s| > 0 {
      var rest := Split(s[1..]);
      JoinSplit(s[1..]);
      if s[0] == ':' {
        assert ([""] + rest)[1..] == rest;
      } else {
        var r := [[s[0]] + rest[0]] + rest[1..];
        if |rest| > 1 {
          assert r[1..] == rest[1..];
          assert Join(rest) == rest[0] + ":" + Join(rest[1..]);
        }
      }
      assert s == [s[0]] + s[1..];
    }
  }

  /** A field followed by a colon splits off as the first field. */
  lemma {:induction false} SplitField(a: string, b: string)
    requires ':' !in a
    ensures Split(a + ":" + b) == [a] + Split(b)
    decreases |a|
  {
    if |a| == 0 {
      assert a + ":" + b == [':'] + b;
      assert ([':'] + b)[1..] == b;
    } else {
      assert (a + ":" + b)[1..] == a[1..] + ":" + b;
      SplitField(a[1..], b);
      assert [a[0]] + a[1..] == a;
    }
  }

  /** A string without colons is a single field. */
  lemma {:induction false} SplitWhole(a: string)
    requires ':' !in a
    ensures Split(a) == [a]
    decreases |a|
  {
    if |a| > 0 {
      SplitWhole(a[1..]);
      assert [a[0]] + a[1..] == a;
    }
  }

  // ---------------------------------------------------------------------
  // Integers

  /** Digits separated by single underscores, as `int()` accepts in base 10. */
  predicate DigitGroup(s: string) {
    && |s| > 0 && IsDigit(s[0]) && IsDigit(s[|s| - 1])
    && (forall i :: 0 <= i < |s| ==> IsDigit(s[i]) || s[i] == '_')
    && (forall i :: 0 <= i < |s| - 1 ==> !(s[i] == '_' && s[i + 1] == '_'))
  }

  function DigitsOnly(s: string): string
    decreases |s|
  {
    if |s| == 0 then "" else (if s[0] == '_' then "" else [s[0]]) + DigitsOnly(s[1..])
  }

  function Decimal(d: string): nat
    decreases |d|
  {
    if |d| == 0 then 0
    else
      var c := d[|d| - 1];
      Decimal(d[..|d| - 1]) * 10 + (if IsDigit(c) then (c as int - '0' as int) else 0)
  }

  /** `int(s)` in base 10: surrounding whitespace, an optional sign and a digit
      group; `None` where `int` raises `ValueError`. */
  function ParseInt(s: string): Option<int> {
    ParseSignedGroup(Strip(s))
  }

  /** An optional sign and a digit group, with nothing around them. */
  function ParseSignedGroup(t: string): Option<int> {
    if |t| == 0 then None
    else
      var negative := t[0] == '-';
      var body := if t[0] == '-' || t[0] == '+' then t[1..] else t;
      if DigitGroup(body) then
        var n: int := Decimal(DigitsOnly(body));
        Some(if negative then -n else n)
      else None
  }

  /** The decimal numeral of `n`, without sign or leading zeros. */
  function Numeral(n: nat): (r: string)
    ensures |r| > 0 && forall i :: 0 <= i < |r| ==> IsDigit(r[i])
    decreases n
  {
    if n < 10 then [('0' as int + n) as char]
    else Numeral(n / 10) + [('0' as int + n % 10) as char]
  }

  lemma {:induction false} DigitsOnlyOfDigits(d: string)
    requires forall i :: 0 <= i < |d| ==> IsDigit(d[i])
    ensures DigitsOnly(d) == d
    decreases |d|
  {
    if |d| > 0 {
      DigitsOnlyOfDigits(d[1..]);
      assert [d[0]] + d[1..] == d;
    }
  }

  lemma {:induction false} DecimalNumeral(n: nat)
    ensures Decimal(Numeral(n)) == n
    decreases n
  {
    if n >= 10 {
      DecimalNumeral(n / 10);
      var r := Numeral(n);
      assert r[..|r| - 1] == Numeral(n / 10);
    }
  }

  /** `strip()` keeps a contiguous part of the string and drops only
      whitespace around it. */
  lemma StripInside(s: string) returns (a: nat)
    ensures a + |Strip(s)| <= |s| && Strip(s) == s[a..a + |Strip(s)|]
    ensures forall i :: 0 <= i < a ==> IsSpace(s[i])
    ensures forall i :: a + |Strip(s)| <= i < |s| ==> IsSpace(s[i])
  {
    var t := TrimStart(s);
    var r := TrimEnd(t);
    a := |s| - |t|;
    TrimStartDrops(s);
    TrimEndDrops(t);
    assert t == s[a..];
    assert r == t[..|r|];
    forall i | a + |r| <= i < |s| ensures IsSpace(s[i]) {
      assert s[i] == t[i - a];
    }
  }

  /** `lstrip()` drops only whitespace. */
  lemma {:induction false} TrimStartDrops(s: string)
    ensures forall i :: 0 <= i < |s| - |TrimStart(s)| ==> IsSpace(s[i])
    decreases |s|
  {
    if |s| > 0 && IsSpace(s[0]) {
      TrimStartDrops(s[1..]);
      forall i | 1 <= i < |s| - |TrimStart(s)| ensures IsSpace(s[i]) {
        assert s[i] == s[1..][i - 1];
      }
    }
  }

  /** `rstrip()` drops only whitespace. */
  lemma {:induction false} TrimEndDrops(s: string)
    ensures forall i :: |TrimEnd(s)| <= i < |s| ==> IsSpace(s[i])
    decreases |s|
  {
    if |s| > 0 && IsSpace(s[|s| - 1]) {
      TrimEndDrops(s[..|s| - 1]);
      forall i | |TrimEnd(s)| <= i < |s| - 1 ensures IsSpace(s[i]) {
        assert s[i] == s[..|s| - 1][i];
      }
    }
  }

  /** Leading whitespace in front of a string that does not start with a space
      is trimmed off completely. */
  lemma {:induction false} TrimStartBlank(w: string, y: string)
    requires Blank(w) && (|y| > 0 ==> !IsSpace(y[0]))
    ensures TrimStart(w + y) == y
    decreases |w|
  {
    if |w| > 0 {
      assert (w + y)[0] == w[0];
      assert (w + y)[1..] == w[1..] + y;
      TrimStartBlank(w[1..], y);
    } else {
      assert w + y == y;
    }
  }

  /** Trailing whitespace behind a string that does not end with a space is
      trimmed off completely. */
  lemma {:induction false} TrimEndBlank(y: string, w: string)
    requires Blank(w) && (|y| > 0 ==> !IsSpace(y[|y| - 1]))
    ensures TrimEnd(y + w) == y
    decreases |w|
  {
    if |w| > 0 {
      var yw := y + w;
      assert yw[|yw| - 1] == w[|w| - 1];
      assert yw[..|yw| - 1] == y + w[..|w| - 1];
      TrimEndBlank(y, w[..|w| - 1]);
    } else {
      assert y + w == y;
    }
  }

  /** `strip()` removes exactly the whitespace padding around an unpadded
      string. */
  lemma StripPadding(w1: string, x: string, w2: string)
    requires Blank(w1) && Blank(w2) && Unpadded(x)
    ensures Strip(w1 + x + w2) == x
  {
    assert w1 + x + w2 == w1 + (x + w2);
    assert (x + w2)[0] == x[0];
    TrimStartBlank(w1, x + w2);
    TrimEndBlank(x, w2);
  }

  lemma StripUnpadded(str: string)
    requires Unpadded(str)
    ensures Strip(str) == str
  {
    assert TrimStart(str) == str;
    assert TrimEnd(str) == str;
  }

  lemma DigitNotSpace(c: char)
    requires IsDigit(c)
    ensures !IsSpace(c) && c != ':'
  {
  }

  /** A run of digits holds no colon and no whitespace at its ends. */
  lemma DigitsFree(d: string)
    requires Digits(d)
    ensures ':' !in d && Unpadded(d)
  {
    DigitNotSpace(d[0]);
    DigitNotSpace(d[|d| - 1]);
    forall i | 0 <= i < |d| ensures d[i] != ':' {
      DigitNotSpace(d[i]);
    }
  }

  // ---------------------------------------------------------------------
  // Integers: what `int()` accepts and what it rejects

  /** `int()` reads back the numeral of every natural number. */
  lemma ParseNumeral(n: nat)
    ensures ParseInt(Numeral(n)) == Some(n)
  {
    ParseDigits(Numeral(n));
    DecimalNumeral(n);
  }

  /** A run of digits, leading zeros included, reads as its decimal value. */
  lemma ParseDigits(r: string)
    requires Digits(r)
    ensures ParseInt(r) == Some(Decimal(r))
  {
    DigitsFree(r);
    StripUnpadded(r);
    assert r[0] != '-' && r[0] != '+';
    assert DigitGroup(r);
    DigitsOnlyOfDigits(r);
  }

  /** A sign in front of a run of digits is read: "-" negates, "+" does not. */
  lemma ParseSigned(d: string)
    requires Digits(d)
    ensures ParseInt("-" + d) == Some(-(Decimal(d) as int))
    ensures ParseInt("+" + d) == Some(Decimal(d))
  {
    assert "-" + d == ['-'] + d;
    assert "+" + d == ['+'] + d;
    SignedDigits('-', d);
    SignedDigits('+', d);
  }

  lemma SignedDigits(sign: char, d: string)
    requires Digits(d) && (sign == '-' || sign == '+')
    ensures ParseInt([sign] + d) == Some(if sign == '-' then -(Decimal(d) as int) else Decimal(d))
  {
    var t := [sign] + d;
    assert t[0] == sign && t[|t| - 1] == d[|d| - 1];
    DigitsFree(d);
    StripUnpadded(t);
    SignedGroup(sign, d);
  }

  lemma SignedGroup(sign: char, d: string)
    requires Digits(d) && (sign == '-' || sign == '+')
    ensures ParseSignedGroup([sign] + d) == Some(if sign == '-' then -(Decimal(d) as int) else Decimal(d))
  {
    var t := [sign] + d;
    assert t[0] == sign && t[1..] == d;
    assert DigitGroup(d);
    DigitsOnlyOfDigits(d);
  }

  /** Whitespace around a number is ignored. */
  lemma ParsePadded(w1: string, x: string, w2: string)
    requires Blank(w1) && Blank(w2) && Unpadded(x)
    ensures ParseInt(w1 + x + w2) == ParseInt(x)
  {
    StripPadding(w1, x, w2);
    StripUnpadded(x);
  }

  /** The characters `int()` can read in base 10. */
  predicate IntChar(c: char) {
    IsDigit(c) || IsSpace(c) || c == '+' || c == '-' || c == '_'
  }

  /** A string holding any other character, such as a decimal point or a
      letter, is unreadable. */
  lemma ParseIntChars(s: string)
    ensures ParseInt(s).Some? ==> forall i :: 0 <= i < |s| ==> IntChar(s[i])
  {
    if ParseInt(s).Some? {
      var t := Strip(s);
      var a := StripInside(s);
      var body := if t[0] == '-' || t[0] == '+' then t[1..] else t;
      assert DigitGroup(body);
      forall i | 0 <= i < |s| ensures IntChar(s[i]) {
        if a <= i < a + |t| {
          assert s[i] == t[i - a];
          if i > a && (t[0] == '-' || t[0] == '+') {
            assert t[i - a] == body[i - a - 1];
          }
        }
      }
    }
  }

  /** An empty or all-whitespace string is unreadable. */
  lemma BlankUnreadable(s: string)
    requires Blank(s)
    ensures ParseInt(s) == None
  {
    var a := StripInside(s);
  }

  // ---------------------------------------------------------------------
  // Clock strings

  function Seconds(h: int, m: int, s: int): int {
    h * 3600 + m * 60 + s
  }

  /** Hours, minutes and seconds fields read as integers. */
  function FromFields(h: string, m: string, s: string): Option<int> {
    match (ParseInt(h), ParseInt(m), ParseInt(s))
    case (Some(hv), Some(mv), Some(sv)) => Some(Seconds(hv, mv, sv))
    case _ => None
  }

  /** `_to_seconds` of timetable_builder.py: exactly three colon-separated
      integers; anything else, or no string at all, gives `None`. */
  function ToSecondsExact(t: Option<string>): (r: Option<int>)
    ensures t.None? ==> r.None?
    ensures r.Some? ==> |Split(Strip(t.value))| == 3
  {
    match t
    case None => None
    case Some(str) =>
      var parts := Split(Strip(str));
      if |parts| != 3 then None
      else
        FromFields(parts[0], parts[1], parts[2])
  }

  /** `_to_seconds` of plans_parser.py: the first three colon-separated fields
      must be integers, any further fields are never looked at; fewer than
      three fields, or no string at all, gives `None`. */
  function ToSecondsLenient(t: Option<string>): (r: Option<int>)
    ensures t.None? ==> r.None?
    ensures r.Some? ==> |Split(Strip(t.value))| >= 3
  {
    match t
    case None => None
    case Some(str) =>
      var parts := Split(Strip(str));
      if |parts| < 3 then None
      else
        FromFields(parts[0], parts[1], parts[2])
  }

  /** The stripped string has fewer than three fields, or one of its first
      three fields is not an integer. */
  predicate FieldsUnreadable(str: string) {
    var parts := Split(Strip(str));
    |parts| < 3 || FromFields(parts[0], parts[1], parts[2]).None?
  }

  /** Three fields are read exactly when each of them is an integer, and
      then as hours, minutes and seconds. */
  lemma FromFieldsRead(h: string, m: string, s: string)
    ensures FromFields(h, m, s).Some? <==> ParseInt(h).Some? && ParseInt(m).Some? && ParseInt(s).Some?
    ensures FromFields(h, m, s).Some? ==>
      FromFields(h, m, s).value == Seconds(ParseInt(h).value, ParseInt(m).value, ParseInt(s).value)
  {
  }

  /** When each variant reads a clock string: the lenient one exactly when the
      first three fields are integers, the exact one when moreover there are no
      further fields; an unreadable string gives `None` for both. */
  lemma ClockReadable(str: string)
    ensures FieldsUnreadable(str) ==> ToSecondsExact(Some(str)) == None && ToSecondsLenient(Some(str)) == None
    ensures ToSecondsLenient(Some(str)).Some? <==> !FieldsUnreadable(str)
    ensures ToSecondsExact(Some(str)).Some? <==> !FieldsUnreadable(str) && |Split(Strip(str))| == 3
  {
  }

  /** Three colon-free fields joined by colons. */
  function ClockString(a: string, b: string, c: string): string {
    a + ":" + b + ":" + c
  }

  /** Two colon-free fields in front split off one by one. */
  lemma SplitTwo(a: string, b: string, c: string)
    requires ':' !in a && ':' !in b
    ensures Split(a + ":" + b + ":" + c) == [a, b] + Split(c)
  {
    var x := b + ":" + c;
    assert a + ":" + b + ":" + c == a + ":" + x;
    SplitField(a, x);
    SplitField(b, c);
    assert [a] + ([b] + Split(c)) == [a, b] + Split(c);
  }

  /** Both variants read any three colon-free fields, with whitespace around
      the whole string, as the integers of the fields combined into seconds,
      and give `None` as soon as one field is not an integer. */
  lemma ClockFields(w1: string, a: string, b: string, c: string, w2: string)
    requires ':' !in a && ':' !in b && ':' !in c
    requires Blank(w1) && Blank(w2) && Unpadded(ClockString(a, b, c))
    ensures ToSecondsExact(Some(w1 + ClockString(a, b, c) + w2)) == FromFields(a, b, c)
    ensures ToSecondsLenient(Some(w1 + ClockString(a, b, c) + w2)) == FromFields(a, b, c)
  {
    ClockSplit(w1, a, b, c, w2);
    ThreeFields(w1 + ClockString(a, b, c) + w2, a, b, c, []);
  }

  /** The stripped string splits into exactly the three fields. */
  lemma ClockSplit(w1: string, a: string, b: string, c: string, w2: string)
    requires ':' !in a && ':' !in b && ':' !in c
    requires Blank(w1) && Blank(w2) && Unpadded(ClockString(a, b, c))
    ensures Split(Strip(w1 + ClockString(a, b, c) + w2)) == [a, b, c] + []
  {
    StripPadding(w1, ClockString(a, b, c), w2);
    SplitClockString(a, b, c);
  }

  lemma SplitClockString(a: string, b: string, c: string)
    requires ':' !in a && ':' !in b && ':' !in c
    ensures Split(ClockString(a, b, c)) == [a, b, c] + []
  {
    SplitTwo(a, b, c);
    SplitWhole(c);
    assert [a, b] + [c] == [a, b, c] + [];
  }

  /** A string whose stripped fields are `a`, `b`, `c` and then `rest`: the
      lenient variant reads the three, the exact one only when nothing
      follows. */
  lemma ThreeFields(str: string, a: string, b: string, c: string, rest: seq<string>)
    requires Split(Strip(str)) == [a, b, c] + rest
    ensures ToSecondsLenient(Some(str)) == FromFields(a, b, c)
    ensures ToSecondsExact(Some(str)) == if rest == [] then FromFields(a, b, c) else None
  {
    var parts := Split(Strip(str));
    assert parts[0] == a && parts[1] == b && parts[2] == c;
  }

  /** Both variants read "h:m:s" written with digit runs, leading zeros and
      surrounding whitespace included, as h*3600 + m*60 + s, with no bound on
      the hours. */
  lemma ClockRoundTrip(w1: string, a: string, b: string, c: string, w2: string)
    requires Digits(a) && Digits(b) && Digits(c) && Blank(w1) && Blank(w2)
    ensures ToSecondsExact(Some(w1 + ClockString(a, b, c) + w2)) == Some(Seconds(Decimal(a), Decimal(b), Decimal(c)))
    ensures ToSecondsLenient(Some(w1 + ClockString(a, b, c) + w2)) == Some(Seconds(Decimal(a), Decimal(b), Decimal(c)))
  {
    DigitsFree(a);
    DigitsFree(b);
    DigitsFree(c);
    var x := ClockString(a, b, c);
    assert x[0] == a[0] && x[|x| - 1] == c[|c| - 1];
    ClockFields(w1, a, b, c, w2);
    FromFieldsDigits(a, b, c);
  }

  lemma FromFieldsDigits(a: string, b: string, c: string)
    requires Digits(a) && Digits(b) && Digits(c)
    ensures FromFields(a, b, c) == Some(Seconds(Decimal(a), Decimal(b), Decimal(c)))
  {
    ParseDigits(a);
    ParseDigits(b);
    ParseDigits(c);
  }

  /** The clock string of three numbers reads back as their seconds. */
  lemma ClockNumerals(h: nat, m: nat, s: nat)
    ensures ToSecondsExact(Some(ClockString(Numeral(h), Numeral(m), Numeral(s)))) == Some(Seconds(h, m, s))
    ensures ToSecondsLenient(Some(ClockString(Numeral(h), Numeral(m), Numeral(s)))) == Some(Seconds(h, m, s))
  {
    var x := ClockString(Numeral(h), Numeral(m), Numeral(s));
    ClockRoundTrip("", Numeral(h), Numeral(m), Numeral(s), "");
    NoPadding(x);
    DecimalNumeral(h);
    DecimalNumeral(m);
    DecimalNumeral(s);
  }

  lemma NoPadding(x: string)
    ensures "" + x + "" == x
  {
  }

  /** A character `int()` cannot read, such as a decimal point or a letter,
      in one of the first three fields makes the clock string unreadable for
      both variants. */
  lemma BadCharUnreadable(str: string, i: nat, j: nat)
    requires i < 3 && i < |Split(Strip(str))|
    requires j < |Split(Strip(str))[i]| && !IntChar(Split(Strip(str))[i][j])
    ensures ToSecondsExact(Some(str)) == None && ToSecondsLenient(Some(str)) == None
  {
    ParseIntChars(Split(Strip(str))[i]);
    FieldUnreadable(str, i);
  }

  /** One of the first three fields that is not an integer makes the clock
      string unreadable for both variants. */
  lemma FieldUnreadable(str: string, i: nat)
    requires i < 3 && i < |Split(Strip(str))| && ParseInt(Split(Strip(str))[i]).None?
    ensures ToSecondsExact(Some(str)) == None && ToSecondsLenient(Some(str)) == None
  {
    var parts := Split(Strip(str));
    if |parts| >= 3 {
      FromFieldsRead(parts[0], parts[1], parts[2]);
      if i == 0 {
        assert ParseInt(parts[0]).None?;
      } else if i == 1 {
        assert ParseInt(parts[1]).None?;
      } else {
        assert ParseInt(parts[2]).None?;
      }
    }
  }

  /** Three colon-free fields followed by more fields: the exact variant gives
      `None`, the lenient one reads the first three as if nothing followed. */
  lemma ClockFieldsExtra(a: string, b: string, c: string, extra: string)
    requires ':' !in a && ':' !in b && ':' !in c
    requires !IsSpace((ClockString(a, b, c) + ":")[0])
    ensures ToSecondsExact(Some(ClockString(a, b, c) + ":" + extra)) == None
    ensures ToSecondsLenient(Some(ClockString(a, b, c) + ":" + extra)) == FromFields(a, b, c)
  {
    var rest := ClockSplitExtra(a, b, c, extra);
    ThreeFields(ClockString(a, b, c) + ":" + extra, a, b, c, rest);
  }

  /** The stripped string splits into the three fields and at least one
      more. */
  lemma ClockSplitExtra(a: string, b: string, c: string, extra: string) returns (rest: seq<string>)
    requires ':' !in a && ':' !in b && ':' !in c
    requires !IsSpace((ClockString(a, b, c) + ":")[0])
    ensures Split(Strip(ClockString(a, b, c) + ":" + extra)) == [a, b, c] + rest && rest != []
  {
    var p := ClockString(a, b, c) + ":";
    assert p[|p| - 1] == ':';
    var e := StripKeepsPrefix(p, extra);
    assert p + extra == ClockString(a, b, c) + ":" + extra;
    assert p + e == ClockString(a, b, c) + ":" + e;
    SplitClockExtra(a, b, c, e);
    rest := Split(e);
  }

  lemma SplitClockExtra(a: string, b: string, c: string, e: string)
    requires ':' !in a && ':' !in b && ':' !in c
    ensures Split(ClockString(a, b, c) + ":" + e) == [a, b, c] + Split(e)
  {
    assert ClockString(a, b, c) + ":" + e == a + ":" + b + ":" + (c + ":" + e);
    SplitTwo(a, b, c + ":" + e);
    SplitField(c, e);
    assert [a, b] + ([c] + Split(e)) == [a, b, c] + Split(e);
  }

  /** With a fourth field the exact variant gives `None` while the lenient one
      still reads the first three. */
  lemma ExtraFieldsDiffer(a: string, b: string, c: string, extra: string)
    requires Digits(a) && Digits(b) && Digits(c)
    ensures ToSecondsExact(Some(ClockString(a, b, c) + ":" + extra)) == None
    ensures ToSecondsLenient(Some(ClockString(a, b, c) + ":" + extra)) == Some(Seconds(Decimal(a), Decimal(b), Decimal(c)))
  {
    DigitsFree(a);
    DigitsFree(b);
    DigitsFree(c);
    assert (ClockString(a, b, c) + ":")[0] == a[0];
    ClockFieldsExtra(a, b, c, extra);
    FromFieldsDigits(a, b, c);
  }

  /** Stripping a string that starts with an unpadded prefix keeps the whole
      prefix. */
  lemma StripKeepsPrefix(p: string, extra: string) returns (e: string)
    requires Unpadded(p)
    ensures Strip(p + extra) == p + e
  {
    var c := p + extra;
    var k := |p|;
    assert c[0] == p[0];
    assert TrimStart(c) == c;
    assert c[k - 1] == p[k - 1];
    TrimEndKeeps(c, k);
    var r := TrimEnd(c);
    assert Strip(c) == r;
    assert r == c[..|r|] && |r| >= k;
    e := r[k..];
    assert r == p + e;
  }

  /** Trimming the end never reaches a non-space character. */
  lemma {:induction false} TrimEndKeeps(c: string, k: nat)
    requires k <= |c| && k > 0 && !IsSpace(c[k - 1])
    ensures |TrimEnd(c)| >= k
    decreases |c|
  {
    if |c| > k && IsSpace(c[|c| - 1]) {
      TrimEndKeeps(c[..|c| - 1], k);
    }
  }

  /** Whenever the exact variant reads a string, the lenient one reads the same
      value; they differ only on strings with more than three fields. */
  lemma ExactImpliesLenient(t: Option<string>)
    ensures ToSecondsExact(t).Some? ==> ToSecondsLenient(t) == ToSecondsExact(t)
    ensures t.Some? && |Split(Strip(t.value))| == 3 ==> ToSecondsLenient(t) == ToSecondsExact(t)
  {
  }
}

=== FILE: common.dfy ===
/** Shared vocabulary of the pipeline: optional values, fallible results,
    the car-vehicle naming convention and the code-point order on strings
    that grouping by vehicle id sorts with. */
module Common {

  /** An attribute or column value that may be absent (Python `None` / `NaN`). */
  datatype Option<+T> = None | Some(value: T) {
    /** The value, or `default` when absent (Python `dict.get(k, default)`, `fillna`). */
    function GetOr(default: T): T {
      match this
      case Some(v) => v
      case None => default
    }
  }

  /** The outcome of a step that raises on bad input: `Err` names what was wrong. */
  datatype Result<+T, +E> = Ok(value: T) | Err(error: E)

  /** Vehicle ids of private cars carry this suffix ("<personId>:car"). */
  const CarSuffix: string := ":car"

  predicate EndsWith(s: string, suffix: string) {
    |suffix| <= |s| && s[|s| - |suffix|..] == suffix
  }

  /** `vehicle_id.endswith(":car")` */
  predicate IsCar(v: string) {
    EndsWith(v, CarSuffix)
  }

  /** `s` contains `pat` at position `i`. */
  predicate OccursAt(s: string, pat: string, i: nat) {
    i + |pat| <= |s| && s[i..i + |pat|] == pat
  }

  /** `s.replace(pat, "")`: every non-overlapping occurrence of `pat`, scanned
      left to right, is deleted. */
  function RemoveAll(s: string, pat: string): (r: string)
    requires |pat| > 0
    ensures |r| <= |s|
    decreases |s|
  {
    if |s| == 0 then ""
    else if OccursAt(s, pat, 0) then RemoveAll(s[|pat|..], pat)
    else [s[0]] + RemoveAll(s[1..], pat)
  }

  /** `s` contains no occurrence of the car marker. */
  predicate FreeOfCar(s: string) {
    forall i: nat :: i < |s| ==> !OccursAt(s, CarSuffix, i)
  }

  /** Removing the marker from "<p>:car" gives back `p` when `p` itself holds no
      marker: the marker cannot straddle the end of `p` because no proper prefix
      of ":car" is also a suffix of it. */
  lemma {:induction false} RemoveCarSuffix(p: string)
    requires FreeOfCar(p)
    ensures RemoveAll(p + CarSuffix, CarSuffix) == p
    decreases |p|
  {
    if |p| == 0 {
      assert OccursAt(CarSuffix, CarSuffix, 0);
      assert CarSuffix[|CarSuffix|..] == "";
    } else {
      assert |CarSuffix| == 4;
      var s := p + CarSuffix;
      assert !OccursAt(p, CarSuffix, 0);
      // an occurrence at 0 would lie inside p or straddle its end
      assert !OccursAt(s, CarSuffix, 0) by {
        if |p| >= 4 {
          assert s[0..4] == p[0..4];
        } else {
          assert s[|p|] == ':' != CarSuffix[|p|];
        }
      }
      assert s[1..] == p[1..] + CarSuffix;
      forall i: nat | i < |p[1..]|
        ensures !OccursAt(p[1..], CarSuffix, i)
      {
        assert !OccursAt(p, CarSuffix, i + 1);
      }
      RemoveCarSuffix(p[1..]);
      assert s[0] == p[0];
      assert [p[0]] + p[1..] == p;
    }
  }

  // ---------------------------------------------------------------------
  // Code-point order on strings (Python's `<` on `str`)

  predicate StrLt(a: string, b: string)
    decreases |a|
  {
    if |a| == 0 then |b| > 0
    else |b| > 0 && (a[0] < b[0] || (a[0] == b[0] && StrLt(a[1..], b[1..])))
  }

  lemma {:induction false} StrLtIrreflexive(a: string)
    ensures !StrLt(a, a)
    decreases |a|
  {
    if |a| > 0 {
      StrLtIrreflexive(a[1..]);
    }
  }

  lemma {:induction false} StrLtTransitive(a: string, b: string, c: string)
    requires StrLt(a, b) && StrLt(b, c)
    ensures StrLt(a, c)
    decreases |a|
  {
    if |a| > 0 && a[0] == b[0] && b[0] == c[0] {
      StrLtTransitive(a[1..], b[1..], c[1..]);
    }
  }

  lemma {:induction false} StrLtTotal(a: string, b: string)
    requires a != b
    ensures StrLt(a, b) || StrLt(b, a)
    decreases |a|
  {
    if |a| > 0 && |b| > 0 && a[0] == b[0] {
      assert a == [a[0]] + a[1..] && b == [b[0]] + b[1..];
      StrLtTotal(a[1..], b[1..]);
    }
  }

  lemma StrLtAsymmetric(a: string, b: string)
    requires StrLt(a, b)
    ensures !StrLt(b, a)
  {
    if StrLt(b, a) {
      StrLtTransitive(a, b, a);
      StrLtIrreflexive(a);
    }
  }

  /** Strictly increasing in code-point order, hence free of duplicates. */
  ghost predicate StrictlySorted(r: seq<string>) {
    forall i, j :: 0 <= i < j < |r| ==> StrLt(r[i], r[j])
  }

  /** Inserts `x` into a strictly sorted key list unless it is already there. */
  function InsertKey(r: seq<string>, x: string): (r': seq<string>)
    requires StrictlySorted(r)
    ensures StrictlySorted(r')
    ensures forall y :: y in r' <==> y in r || y == x
    decreases |r|
  {
    if |r| == 0 then [x]
    else if x == r[0] then r
    else if StrLt(x, r[0]) then
      StrLtChain(x, r);
      [x] + r
    else
      StrLtTotal(x, r[0]);
      var rest := InsertKey(r[1..], x);
      assert forall y :: y in rest ==> StrLt(r[0], y) by {
        forall y | y in rest ensures StrLt(r[0], y) {
          if y != x {
            var k :| 0 <= k < |r[1..]| && r[1..][k] == y;
            assert r[k + 1] == y;
          }
        }
      }
      [r[0]] + rest
  }

  lemma StrLtChain(x: string, r: seq<string>)
    requires StrictlySorted(r) && |r| > 0 && StrLt(x, r[0])
    ensures StrictlySorted([x] + r)
  {
    forall j | 0 < j < |r| ensures StrLt(x, r[j]) {
      StrLtTransitive(x, r[0], r[j]);
    }
  }

  /** The distinct values of `xs` in increasing order: the group keys that
      `DataFrame.groupby` visits, in the order it visits them. */
  function SortedKeys(xs: seq<string>): (r: seq<string>)
    ensures StrictlySorted(r)
    ensures forall y :: y in r <==> y in xs
    decreases |xs|
  {
    if |xs| == 0 then []
    else
      var r := InsertKey(SortedKeys(xs[..|xs| - 1]), xs[|xs| - 1]);
      assert xs == xs[..|xs| - 1] + [xs[|xs| - 1]];
      r
  }

  /** Concatenation is associative; stated once so that proofs can regroup
      sequences without asking the solver to rediscover it. */
  lemma ConcatAssoc<T>(a: seq<T>, b: seq<T>, c: seq<T>)
    ensures a + (b + c) == (a + b) + c
  {
  }
}

=== FILE: discharge.dfy ===
/** Slot binning: every vehicle's episodes projected onto the 96 quarter-hour
    slots of the day. Each slot collects the seconds parked and driving that
    fall in it and the energy of the driving share, and is flagged parked
    when at least half of its recorded time is parked. */
module Discharge {
  import opened Common
  import opened Events
  import opened Timetable

  const SlotDuration: int := 900
  const NSlots: int := (DayEnd - DayStart) / SlotDuration

  /** Energy use in kWh per km. */
  const EffEv: real := 0.15

  /** What one slot has collected: seconds parked, seconds driving, energy. */
  datatype Cell = Cell(parked: int, driving: int, energy: real) {
    function Plus(c: Cell): Cell {
      Cell(parked + c.parked, driving + c.driving, energy + c.energy)
    }
  }

  const Empty: Cell := Cell(0, 0, 0.0)

  /** One row of the profile. */
  datatype SlotRow = SlotRow(vehicle: string, slot: int, tStart: int, tEnd: int, parked: int, energy: real)

  function Min(a: int, b: int): int { if a <= b then a else b }

  function Max(a: int, b: int): int { if a >= b then a else b }

  /** Seconds of [a, b) inside slot `s`, never negative. */
  function Clip(a: int, b: int, s: int): (o: int)
    ensures 0 <= o <= SlotDuration
  {
    Max(Min(b, (s + 1) * SlotDuration) - Max(a, s * SlotDuration), 0)
  }

  function Overlap(ep: Episode, s: int): int {
    Clip(ep.tStart, ep.tEnd, s)
  }

  /** The first slot an episode is binned into (floor division). */
  function SlotFirst(ep: Episode): int {
    ep.tStart / SlotDuration
  }

  /** The last slot: the one holding the episode's last second, capped at the
      last second of the day. */
  function SlotLast(ep: Episode): (s: int)
    ensures s < NSlots
  {
    Min(ep.tEnd - 1, DayEnd - 1) / SlotDuration
  }

  /** Where slot `s` lands in the per-slot arrays: a negative slot counts from
      the end, as array indexing does. */
  function Index(s: int): int
    requires -NSlots <= s < NSlots
  {
    if s < 0 then s + NSlots else s
  }

  /** The energy a driving episode attributes to slot `s`: the slot's share of
      the episode's duration applied to its distance in km. */
  function Share(ep: Episode, s: int): real {
    match ep.kind
    case Parked(_) => 0.0
    case Driving(distance) =>
      var fraction := if ep.Duration() > 0 then (Overlap(ep, s) as real) / (ep.Duration() as real) else 0.0;
      fraction * (distance / 1000.0) * EffEv
  }

  /** What the episode adds to slot `s`. */
  function Contribution(ep: Episode, s: int): Cell {
    match ep.kind
    case Parked(_) => Cell(Overlap(ep, s), 0, 0.0)
    case Driving(_) => Cell(0, Overlap(ep, s), Share(ep, s))
  }

  ghost predicate Valid(cells: seq<Cell>) {
    |cells| == NSlots
  }

  /** Adds the episode to slots `s` through `last`; a slot below -96 has no
      array entry and raises `IndexError`. */
  function AddRange(cells: seq<Cell>, ep: Episode, s: int, last: int): (r: Result<seq<Cell>, string>)
    requires Valid(cells) && last < NSlots
    ensures r.Ok? ==> Valid(r.value)
    decreases last - s
  {
    if s > last then Ok(cells)
    else if s < -NSlots then Err("IndexError")
    else
      var k := Index(s);
      AddRange(cells[k := cells[k].Plus(Contribution(ep, s))], ep, s + 1, last)
  }

  function AddEpisode(cells: seq<Cell>, ep: Episode): (r: Result<seq<Cell>, string>)
    requires Valid(cells)
    ensures r.Ok? ==> Valid(r.value)
  {
    AddRange(cells, ep, SlotFirst(ep), SlotLast(ep))
  }

  function AddEpisodes(cells: seq<Cell>, eps: seq<Episode>): (r: Result<seq<Cell>, string>)
    requires Valid(cells)
    ensures r.Ok? ==> Valid(r.value)
    decreases |eps|
  {
    if |eps| == 0 then Ok(cells)
    else
      match AddEpisode(cells, eps[0])
      case Err(e) => Err(e)
      case Ok(next) => AddEpisodes(next, eps[1..])
  }

  function Zero(): (cells: seq<Cell>)
    ensures Valid(cells)
  {
    seq(NSlots, _ => Empty)
  }

  /** The slots of one vehicle's episodes. */
  function Slots(eps: seq<Episode>): (r: Result<seq<Cell>, string>)
    ensures r.Ok? ==> Valid(r.value)
  {
    AddEpisodes(Zero(), eps)
  }

  /** The majority rule: parked when parked time is at least half the
      recorded time, and parked when nothing was recorded. */
  function Flag(parked: int, driving: int): int {
    var total := parked + driving;
    if total > 0 then (if (parked as real) / (total as real) >= 0.5 then 1 else 0)
    else 1
  }

  /** The 96 rows of one vehicle. */
  function VehicleRows(v: string, cells: seq<Cell>): (r: seq<SlotRow>)
    requires Valid(cells)
    ensures |r| == NSlots
  {
    seq(NSlots, k requires 0 <= k < NSlots =>
      SlotRow(v, k, k * SlotDuration, (k + 1) * SlotDuration, Flag(cells[k].parked, cells[k].driving), cells[k].energy))
  }

  function EpisodeVehicles(eps: seq<Episode>): (r: seq<string>)
    ensures |r| == |eps| && forall i :: 0 <= i < |eps| ==> r[i] == eps[i].vehicle
  {
    seq(|eps|, i requires 0 <= i < |eps| => eps[i].vehicle)
  }

  /** The rows of each key's vehicle, in key order. */
  function ProfileOf(timetable: seq<Episode>, keys: seq<string>): (r: Result<seq<SlotRow>, string>)
    ensures r.Ok? ==> |r.value| == NSlots * |keys|
    decreases |keys|
  {
    if |keys| == 0 then Ok([])
    else
      match Slots(EpisodesOf(timetable, keys[0]))
      case Err(e) => Err(e)
      case Ok(cells) =>
        match ProfileOf(timetable, keys[1..])
        case Err(e) => Err(e)
        case Ok(rest) =>
          assert NSlots == 96;
          Ok(VehicleRows(keys[0], cells) + rest)
  }

  /** `build_discharge_profile`: vehicles in increasing id order, 96 rows each. */
  function BuildDischargeProfile(timetable: seq<Episode>): (r: Result<seq<SlotRow>, string>)
    ensures r.Ok? ==> |r.value| == NSlots * |SortedKeys(EpisodeVehicles(timetable))|
  {
    ProfileOf(timetable, SortedKeys(EpisodeVehicles(timetable)))
  }

  // ---------------------------------------------------------------------
  // Which slots an episode touches

  /** For an episode inside the day, the binned slots are exactly those it
      overlaps; an episode ending on a slot boundary adds nothing to the
      slot that starts there. */
  lemma TouchedSlots(ep: Episode, k: int)
    requires 0 <= ep.tStart < ep.tEnd <= DayEnd && 0 <= k < NSlots
    ensures Overlap(ep, k) > 0 <==> SlotFirst(ep) <= k <= SlotLast(ep)
  {
    var q := ep.tStart / SlotDuration;
    var r := (ep.tEnd - 1) / SlotDuration;
    assert q * SlotDuration <= ep.tStart < q * SlotDuration + SlotDuration;
    assert r * SlotDuration <= ep.tEnd - 1 < r * SlotDuration + SlotDuration;
    assert SlotLast(ep) == r;
    if q <= k <= r {
      assert k * SlotDuration < ep.tEnd;
      assert ep.tStart < (k + 1) * SlotDuration;
    } else if k < q {
      assert (k + 1) * SlotDuration <= q * SlotDuration;
    } else {
      assert k * SlotDuration >= (r + 1) * SlotDuration;
    }
  }

  /** An episode that starts on or after midnight puts nothing into a slot
      outside its range. */
  lemma OutsideRangeNothing(ep: Episode, k: int)
    requires 0 <= ep.tStart && 0 <= k < NSlots
    requires k < SlotFirst(ep) || k > SlotLast(ep)
    ensures Overlap(ep, k) == 0
  {
    var q := ep.tStart / SlotDuration;
    assert q * SlotDuration <= ep.tStart;
    if k < q {
      assert (k + 1) * SlotDuration <= q * SlotDuration;
    } else {
      var e := Min(ep.tEnd - 1, DayEnd - 1);
      var r := e / SlotDuration;
      assert e < r * SlotDuration + SlotDuration;
      assert k >= r + 1;
      assert k * SlotDuration >= (r + 1) * SlotDuration;
    }
  }

  /** Adding slots `s` through `last` of an episode that starts on or after
      midnight raises nothing and adds its contribution to exactly those
      slots. */
  lemma {:induction false} AddRangeCells(cells: seq<Cell>, ep: Episode, s: int, last: int)
    requires Valid(cells) && 0 <= s && last < NSlots
    ensures AddRange(cells, ep, s, last).Ok?
    ensures var r := AddRange(cells, ep, s, last).value;
            forall k :: 0 <= k < NSlots ==>
              r[k] == if s <= k <= last then cells[k].Plus(Contribution(ep, k)) else cells[k]
    decreases last - s
  {
    if s <= last {
      var next := cells[s := cells[s].Plus(Contribution(ep, s))];
      AddRangeCells(next, ep, s + 1, last);
    }
  }

  /** A slot's contribution is its overlap, in whichever column the episode's
      kind selects. */
  lemma ContributionOutside(ep: Episode, k: int)
    requires 0 <= ep.tStart && 0 <= k < NSlots
    requires k < SlotFirst(ep) || k > SlotLast(ep)
    ensures Contribution(ep, k) == Empty
  {
    OutsideRangeNothing(ep, k);
    if ep.kind.Driving? {
      var fraction := if ep.Duration() > 0 then (Overlap(ep, k) as real) / (ep.Duration() as real) else 0.0;
      if ep.Duration() > 0 {
        ZeroOver(ep.Duration() as real);
      }
      assert fraction == 0.0;
      assert Share(ep, k) == 0.0 * (ep.kind.distance / 1000.0) * EffEv;
    }
  }

  /** Every slot gains exactly the episode's contribution. */
  lemma AddEpisodeCells(cells: seq<Cell>, ep: Episode)
    requires Valid(cells) && 0 <= ep.tStart
    ensures AddEpisode(cells, ep).Ok?
    ensures forall k :: 0 <= k < NSlots ==> AddEpisode(cells, ep).value[k] == cells[k].Plus(Contribution(ep, k))
  {
    AddRangeCells(cells, ep, SlotFirst(ep), SlotLast(ep));
    forall k | 0 <= k < NSlots
      ensures AddEpisode(cells, ep).value[k] == cells[k].Plus(Contribution(ep, k))
    {
      if k < SlotFirst(ep) || k > SlotLast(ep) {
        ContributionOutside(ep, k);
        assert cells[k].Plus(Empty) == cells[k];
      }
    }
  }

  /** The reference sum: what all of `eps` contribute to slot `k`. */
  function Total(eps: seq<Episode>, k: int): Cell
    decreases |eps|
  {
    if |eps| == 0 then Empty else Contribution(eps[0], k).Plus(Total(eps[1..], k))
  }

  ghost predicate StartsInDay(eps: seq<Episode>) {
    forall i :: 0 <= i < |eps| ==> 0 <= eps[i].tStart
  }

  /** Binning episodes that start on or after midnight raises nothing, and
      every slot ends up with the sum of the episodes' contributions. */
  lemma {:induction false} AddEpisodesTotal(cells: seq<Cell>, eps: seq<Episode>)
    requires Valid(cells) && StartsInDay(eps)
    ensures AddEpisodes(cells, eps).Ok?
    ensures forall k :: 0 <= k < NSlots ==> AddEpisodes(cells, eps).value[k] == cells[k].Plus(Total(eps, k))
    decreases |eps|
  {
    if |eps| == 0 {
      forall k | 0 <= k < NSlots ensures cells[k] == cells[k].Plus(Total(eps, k)) { }
    } else {
      AddEpisodeCells(cells, eps[0]);
      var next := AddEpisode(cells, eps[0]).value;
      AddEpisodesTotal(next, eps[1..]);
    }
  }

  /** The slots of a vehicle whose episodes start on or after midnight are
      the reference sums. */
  lemma SlotsAreTotals(eps: seq<Episode>)
    requires StartsInDay(eps)
    ensures Slots(eps).Ok?
    ensures forall k :: 0 <= k < NSlots ==> Slots(eps).value[k] == Total(eps, k)
  {
    AddEpisodesTotal(Zero(), eps);
  }

  // ---------------------------------------------------------------------
  // Tiling

  lemma ClipSplit(a: int, b: int, c: int, k: int)
    requires a <= b <= c
    ensures Clip(a, c, k) == Clip(a, b, k) + Clip(b, c, k)
  {
  }

  /** Episodes tiling [a, b) put exactly the seconds of [a, b) into each slot. */
  lemma {:induction false} TilesTotal(eps: seq<Episode>, a: int, b: int, k: int)
    requires Tiles(eps, a, b)
    ensures Total(eps, k).parked + Total(eps, k).driving == Clip(a, b, k)
    decreases |eps|
  {
    var e := eps[0];
    if |eps| == 1 {
    } else {
      var rest := eps[1..];
      assert Tiles(rest, e.tEnd, b) by {
        assert forall i :: 0 <= i < |rest| ==> rest[i] == eps[i + 1];
      }
      TilesTotal(rest, e.tEnd, b, k);
      assert e.tEnd <= b by {
        assert rest[0].tStart <= rest[0].tEnd;
        TilesOrdered(rest, e.tEnd, b);
      }
      ClipSplit(a, e.tEnd, b, k);
    }
  }

  lemma {:induction false} TilesOrdered(eps: seq<Episode>, a: int, b: int)
    requires Tiles(eps, a, b)
    ensures a <= b
    decreases |eps|
  {
    if |eps| > 1 {
      var rest := eps[1..];
      assert Tiles(rest, eps[0].tEnd, b) by {
        assert forall i :: 0 <= i < |rest| ==> rest[i] == eps[i + 1];
      }
      TilesOrdered(rest, eps[0].tEnd, b);
    }
  }

  /** A vehicle whose episodes tile the day has every slot fully accounted
      for: parked plus driving seconds make 900. */
  lemma TiledDayFillsSlots(eps: seq<Episode>, k: int)
    requires Tiles(eps, DayStart, DayEnd) && 0 <= k < NSlots
    ensures Slots(eps).Ok?
    ensures Slots(eps).value[k].parked + Slots(eps).value[k].driving == SlotDuration
  {
    assert StartsInDay(eps) by {
      forall i | 0 <= i < |eps| ensures 0 <= eps[i].tStart {
        TilesStartAfter(eps, DayStart, DayEnd, i);
      }
    }
    SlotsAreTotals(eps);
    TilesTotal(eps, DayStart, DayEnd, k);
  }

  lemma {:induction false} TilesStartAfter(eps: seq<Episode>, a: int, b: int, i: int)
    requires Tiles(eps, a, b) && 0 <= i < |eps|
    ensures a <= eps[i].tStart
    decreases i
  {
    if i > 0 {
      TilesStartAfter(eps, a, b, i - 1);
    }
  }

  // ---------------------------------------------------------------------
  // Energy

  /** Overlaps with slots 0 .. n-1. */
  function OverlapUpTo(ep: Episode, n: nat): int
    decreases n
  {
    if n == 0 then 0 else OverlapUpTo(ep, n - 1) + Overlap(ep, n - 1)
  }

  function ShareUpTo(ep: Episode, n: nat): real
    decreases n
  {
    if n == 0 then 0.0 else ShareUpTo(ep, n - 1) + Share(ep, n - 1)
  }

  /** The first `n` slots hold the part of the episode before 900 n. */
  lemma {:induction false} OverlapPrefix(ep: Episode, n: nat)
    requires 0 <= ep.tStart <= ep.tEnd
    ensures OverlapUpTo(ep, n) == Max(Min(ep.tEnd, n * SlotDuration) - ep.tStart, 0)
    decreases n
  {
    if n > 0 {
      OverlapPrefix(ep, n - 1);
    }
  }

  lemma Distribute(p: real, q: real, d: real, x: real)
    requires d != 0.0
    ensures ((p + q) / d) * x == (p / d) * x + (q / d) * x
  {
    assert (p + q) / d == p / d + q / d;
  }

  /** The shares of the first `n` slots are the overlap fraction of the
      episode's energy. */
  lemma {:induction false} SharePrefix(ep: Episode, distance: real, n: nat)
    requires ep.kind == Driving(distance) && ep.Duration() > 0
    ensures ShareUpTo(ep, n) == (OverlapUpTo(ep, n) as real / ep.Duration() as real) * (distance / 1000.0 * EffEv)
    decreases n
  {
    var d := ep.Duration() as real;
    var x := distance / 1000.0 * EffEv;
    if n == 0 {
      assert (0.0 / d) == 0.0;
    } else {
      SharePrefix(ep, distance, n - 1);
      var p, q := OverlapUpTo(ep, n - 1) as real, Overlap(ep, n - 1) as real;
      ShareOfSlot(ep, distance, n - 1);
      Distribute(p, q, d, x);
      assert OverlapUpTo(ep, n) as real == p + q;
    }
  }

  /** A driving episode's share of one slot is its overlap fraction of the
      episode's energy. */
  lemma ShareOfSlot(ep: Episode, distance: real, s: int)
    requires ep.kind == Driving(distance) && ep.Duration() > 0
    ensures Share(ep, s) == (Overlap(ep, s) as real / ep.Duration() as real) * (distance / 1000.0 * EffEv)
  {
    var f := Overlap(ep, s) as real / ep.Duration() as real;
    assert Share(ep, s) == f * (distance / 1000.0) * EffEv;
    Reassociate(f, distance / 1000.0, EffEv);
  }

  lemma Reassociate(a: real, b: real, c: real)
    ensures a * b * c == a * (b * c)
  {
  }

  /** A driving episode with positive duration inside the day spreads exactly
      its energy, distance in km times 0.15 kWh/km, over the slots. */
  lemma EnergyConserved(ep: Episode, distance: real)
    requires ep.kind == Driving(distance) && 0 <= ep.tStart < ep.tEnd <= DayEnd
    ensures ShareUpTo(ep, NSlots as nat) == distance / 1000.0 * EffEv
  {
    OverlapPrefix(ep, NSlots as nat);
    SharePrefix(ep, distance, NSlots as nat);
    var d := ep.Duration() as real;
    assert OverlapUpTo(ep, NSlots as nat) as real == d;
    DivSelf(d);
  }

  lemma DivSelf(d: real)
    requires d > 0.0
    ensures d / d == 1.0
  {
    assert (d / d) * d == d;
  }

  /** A zero-length driving episode and every parked episode add no energy. */
  lemma NoEnergyWithoutDriving(ep: Episode, s: int)
    requires ep.kind.Parked? || ep.Duration() <= 0
    ensures Share(ep, s) == 0.0
  {
  }

  /** With non-negative distances no slot's energy is negative. */
  lemma ShareNonNegative(ep: Episode, s: int)
    requires ep.kind.Driving? ==> ep.kind.distance >= 0.0
    ensures Share(ep, s) >= 0.0
  {
    if ep.kind.Driving? && ep.Duration() > 0 {
      var f := (Overlap(ep, s) as real) / (ep.Duration() as real);
      assert f >= 0.0;
      var km := ep.kind.distance / 1000.0;
      assert f * km >= 0.0;
      assert f * km * EffEv >= 0.0;
    }
  }

  ghost predicate NonNegativeDistances(eps: seq<Episode>) {
    forall i :: 0 <= i < |eps| ==> eps[i].kind.Driving? ==> eps[i].kind.distance >= 0.0
  }

  lemma {:induction false} TotalEnergyNonNegative(eps: seq<Episode>, k: int)
    requires NonNegativeDistances(eps)
    ensures Total(eps, k).energy >= 0.0
    decreases |eps|
  {
    if |eps| > 0 {
      ShareNonNegative(eps[0], k);
      TotalEnergyNonNegative(eps[1..], k);
    }
  }

  /** Every slot of a vehicle whose episodes start on or after midnight and
      whose distances are non-negative has non-negative energy. */
  lemma SlotEnergyNonNegative(eps: seq<Episode>, k: int)
    requires StartsInDay(eps) && NonNegativeDistances(eps) && 0 <= k < NSlots
    ensures Slots(eps).Ok? && Slots(eps).value[k].energy >= 0.0
  {
    SlotsAreTotals(eps);
    TotalEnergyNonNegative(eps, k);
  }

  // ---------------------------------------------------------------------
  // Flag and rows

  /** Parked exactly when parked time is at least driving time; ties and
      empty slots count as parked. */
  lemma FlagMajority(parked: nat, driving: nat)
    ensures Flag(parked, driving) == 1 <==> parked >= driving
    ensures Flag(parked, driving) == 0 || Flag(parked, driving) == 1
  {
    var total := parked + driving;
    if total > 0 {
      HalfRatio(parked as real, total as real);
    }
  }

  lemma ZeroOver(d: real)
    requires d > 0.0
    ensures 0.0 / d == 0.0
  {
    assert (0.0 / d) * d == 0.0;
  }

  lemma HalfRatio(p: real, t: real)
    requires t > 0.0
    ensures p / t >= 0.5 <==> p >= 0.5 * t
  {
    var q := p / t;
    assert q * t == p;
    assert p - 0.5 * t == (q - 0.5) * t;
    PositiveFactor(q - 0.5, t);
  }

  lemma PositiveFactor(a: real, t: real)
    requires t > 0.0
    ensures a >= 0.0 <==> a * t >= 0.0
  {
  }

  /** The profile holds 96 rows per vehicle, vehicles in key order, and row
      `k` of a vehicle covers [900 k, 900 (k + 1)). */
  lemma {:induction false} ProfileRows(timetable: seq<Episode>, keys: seq<string>, i: int, k: int)
    requires ProfileOf(timetable, keys).Ok? && 0 <= i < |keys| && 0 <= k < NSlots
    ensures Slots(EpisodesOf(timetable, keys[i])).Ok?
    ensures var row := ProfileOf(timetable, keys).value[NSlots * i + k];
            var c := Slots(EpisodesOf(timetable, keys[i])).value[k];
            && row.vehicle == keys[i] && row.slot == k
            && row.tStart == k * SlotDuration && row.tEnd == row.tStart + SlotDuration
            && row.parked == Flag(c.parked, c.driving) && row.energy == c.energy
    decreases |keys|
  {
    assert NSlots == 96;
    var cells := Slots(EpisodesOf(timetable, keys[0])).value;
    var rest := ProfileOf(timetable, keys[1..]).value;
    var head := VehicleRows(keys[0], cells);
    assert ProfileOf(timetable, keys).value == head + rest;
    var j := NSlots * i + k;
    if i > 0 {
      ProfileRows(timetable, keys[1..], i - 1, k);
      assert keys[1..][i - 1] == keys[i];
      assert j - NSlots == NSlots * (i - 1) + k;
      assert (head + rest)[j] == rest[j - NSlots];
    } else {
      assert (head + rest)[j] == head[k];
    }
  }

  /** No vehicle whose episodes start on or after midnight makes the
      profile fail. */
  lemma {:induction false} ProfileSucceeds(timetable: seq<Episode>, keys: seq<string>)
    requires StartsInDay(timetable)
    ensures ProfileOf(timetable, keys).Ok?
    decreases |keys|
  {
    if |keys| > 0 {
      EpisodesOfStartInDay(timetable, keys[0]);
      SlotsAreTotals(EpisodesOf(timetable, keys[0]));
      ProfileSucceeds(timetable, keys[1..]);
    }
  }

  /** Row `k` of the `i`-th vehicle of the profile, as the program fills it:
      the slot's bounds, the majority flag of the vehicle's parked and driving
      seconds in the slot, and the slot's energy, each summed over the
      vehicle's episodes. */
  lemma ProfileRowValues(timetable: seq<Episode>, i: int, k: int)
    requires StartsInDay(timetable)
    requires 0 <= i < |SortedKeys(EpisodeVehicles(timetable))| && 0 <= k < NSlots
    ensures BuildDischargeProfile(timetable).Ok?
    ensures NSlots * i + k < |BuildDischargeProfile(timetable).value|
    ensures var v := SortedKeys(EpisodeVehicles(timetable))[i];
            var c := Total(EpisodesOf(timetable, v), k);
            BuildDischargeProfile(timetable).value[NSlots * i + k]
              == SlotRow(v, k, k * SlotDuration, (k + 1) * SlotDuration, Flag(c.parked, c.driving), c.energy)
  {
    var keys := SortedKeys(EpisodeVehicles(timetable));
    ProfileSucceeds(timetable, keys);
    RowIndexBound(i, k, |keys|);
    ProfileRows(timetable, keys, i, k);
    EpisodesOfStartInDay(timetable, keys[i]);
    SlotsAreTotals(EpisodesOf(timetable, keys[i]));
  }

  lemma RowIndexBound(i: int, k: int, n: int)
    requires 0 <= i < n && 0 <= k < NSlots
    ensures NSlots * i + k < NSlots * n
  {
    assert NSlots == 96;
  }

  lemma {:induction false} EpisodesOfStartInDay(eps: seq<Episode>, v: string)
    requires StartsInDay(eps)
    ensures StartsInDay(EpisodesOf(eps, v))
    decreases |eps|
  {
    if |eps| > 0 {
      assert StartsInDay(eps[1..]) by {
        forall i | 0 <= i < |eps[1..]| ensures 0 <= eps[1..][i].tStart {
          assert eps[1..][i] == eps[i + 1];
        }
      }
      EpisodesOfStartInDay(eps[1..], v);
    }
  }

  /** From trips to slots: when every vehicle's trips are in time order, not
      overlapping and inside the day, each vehicle's 96 slots of the built
      timetable are fully accounted for. */
  lemma PipelineFillsSlots(trips: seq<Trip>, v: string, k: int)
    requires |trips| > 0 && v in VehicleIds(trips) && 0 <= k < NSlots
    requires forall w :: w in VehicleIds(trips) ==> WellFormedDay(GroupOf(trips, w))
    ensures BuildTimetable(trips).Ok?
    ensures var cells := Slots(EpisodesOf(BuildTimetable(trips).value, v));
            cells.Ok? && cells.value[k].parked + cells.value[k].driving == SlotDuration
  {
    TimetableOfWellFormed(trips, v);
    TiledDayFillsSlots(EpisodesOf(BuildTimetable(trips).value, v), k);
  }

  /** An episode whose binned range is non-empty and starts below -96: its
      first slot has no array entry. */
  predicate OutOfRange(ep: Episode) {
    SlotFirst(ep) < -NSlots && SlotFirst(ep) <= SlotLast(ep)
  }

  /** Adding slots `s` through `last` raises `IndexError` exactly when the
      range is non-empty and starts below -96; past that slot every index is
      valid. */
  lemma {:induction false} AddRangeFails(cells: seq<Cell>, ep: Episode, s: int, last: int)
    requires Valid(cells) && last < NSlots
    ensures AddRange(cells, ep, s, last).Err? <==> s <= last && s < -NSlots
    decreases last - s
  {
    if s <= last && s >= -NSlots {
      var k := Index(s);
      AddRangeFails(cells[k := cells[k].Plus(Contribution(ep, s))], ep, s + 1, last);
    }
  }

  /** Binning one episode raises `IndexError` exactly when it is out of
      range; an episode with an empty range raises nothing however early it
      starts. */
  lemma EpisodeFails(cells: seq<Cell>, ep: Episode)
    requires Valid(cells)
    ensures AddEpisode(cells, ep).Err? <==> OutOfRange(ep)
  {
    AddRangeFails(cells, ep, SlotFirst(ep), SlotLast(ep));
  }

  /** Binning a vehicle's episodes fails exactly when one of them is out of
      range. */
  lemma {:induction false} EpisodesFail(cells: seq<Cell>, eps: seq<Episode>)
    requires Valid(cells)
    ensures AddEpisodes(cells, eps).Err? <==> exists e :: e in eps && OutOfRange(e)
    decreases |eps|
  {
    if |eps| > 0 {
      EpisodeFails(cells, eps[0]);
      if !OutOfRange(eps[0]) {
        EpisodesFail(AddEpisode(cells, eps[0]).value, eps[1..]);
        forall e | e in eps && OutOfRange(e) ensures e in eps[1..] {
          var i :| 0 <= i < |eps| && eps[i] == e;
          assert eps[1..][i - 1] == e;
        }
      }
    }
  }

  /** A vehicle's episodes are those of the timetable with its id. */
  lemma {:induction false} EpisodesOfMembers(eps: seq<Episode>, v: string, e: Episode)
    ensures e in EpisodesOf(eps, v) <==> e in eps && e.vehicle == v
    decreases |eps|
  {
    if |eps| > 0 {
      EpisodesOfMembers(eps[1..], v, e);
      assert eps == [eps[0]] + eps[1..];
    }
  }

  /** The profile fails exactly when the slots of one of the keys' vehicles
      fail. */
  lemma {:induction false} ProfileOfFails(timetable: seq<Episode>, keys: seq<string>)
    ensures ProfileOf(timetable, keys).Err? <==>
            exists j :: 0 <= j < |keys| && Slots(EpisodesOf(timetable, keys[j])).Err?
    decreases |keys|
  {
    if |keys| > 0 {
      ProfileOfFails(timetable, keys[1..]);
      forall j | 1 <= j < |keys| ensures keys[1..][j - 1] == keys[j] { }
    }
  }

  /** `build_discharge_profile` raises `IndexError` exactly when some episode
      of the timetable is out of range, whichever vehicle it belongs to. */
  lemma ProfileFails(timetable: seq<Episode>)
    ensures BuildDischargeProfile(timetable).Err? <==> exists e :: e in timetable && OutOfRange(e)
  {
    var keys := SortedKeys(EpisodeVehicles(timetable));
    ProfileOfFails(timetable, keys);
    if BuildDischargeProfile(timetable).Err? {
      var j :| 0 <= j < |keys| && Slots(EpisodesOf(timetable, keys[j])).Err?;
      FailingVehicle(timetable, keys[j]);
    }
    if exists e :: e in timetable && OutOfRange(e) {
      var e :| e in timetable && OutOfRange(e);
      var j := KeyOf(timetable, e);
      EpisodesOfMembers(timetable, keys[j], e);
      EpisodesFail(Zero(), EpisodesOf(timetable, keys[j]));
    }
  }

  /** A vehicle whose slots fail has an out-of-range episode in the
      timetable. */
  lemma FailingVehicle(timetable: seq<Episode>, v: string)
    requires Slots(EpisodesOf(timetable, v)).Err?
    ensures exists e :: e in timetable && OutOfRange(e)
  {
    EpisodesFail(Zero(), EpisodesOf(timetable, v));
    var e :| e in EpisodesOf(timetable, v) && OutOfRange(e);
    EpisodesOfMembers(timetable, v, e);
  }

  /** Every episode's vehicle is one of the profile's keys. */
  lemma KeyOf(timetable: seq<Episode>, e: Episode) returns (j: nat)
    requires e in timetable
    ensures j < |SortedKeys(EpisodeVehicles(timetable))| && SortedKeys(EpisodeVehicles(timetable))[j] == e.vehicle
  {
    var keys := SortedKeys(EpisodeVehicles(timetable));
    var i :| 0 <= i < |timetable| && timetable[i] == e;
    assert EpisodeVehicles(timetable)[i] == e.vehicle;
    assert e.vehicle in keys;
    j :| 0 <= j < |keys| && keys[j] == e.vehicle;
  }

  /** An episode from -90000 s to 100 s reaches slot -100, which falls off
      the slot arrays, and raises `IndexError`. */
  lemma FarNegativeStartFails()
    ensures AddEpisode(Zero(), Episode("v", -90000, 100, Parked("l"))).Err?
  {
    var ep := Episode("v", -90000, 100, Parked("l"));
    assert SlotFirst(ep) == -100;
    assert SlotLast(ep) == 0;
  }

  /** An episode from -90000 s to -90000 s starts in slot -100 too, but its
      range is empty and nothing is binned. */
  lemma EmptyFarNegativeOk()
    ensures AddEpisode(Zero(), Episode("v", -90000, -90000, Parked("l"))).Ok?
  {
    var ep := Episode("v", -90000, -90000, Parked("l"));
    assert SlotFirst(ep) == -100;
    assert SlotLast(ep) == -101;
  }
}

=== FILE: events.dfy ===
/** The event stream reducer: one left fold over the simulation's event log
    that opens a trip when a car enters traffic, accumulates the lengths of the
    links it enters, closes the trip when it leaves traffic, and pairs each
    person's activity start with the next activity end. */
module Events {
  import opened Common

  /** A completed car trip; times in seconds from midnight, distance in metres. */
  datatype Trip = Trip(
    person: string,
    vehicle: string,
    tStart: int,
    tEnd: int,
    distance: real,
    fromLink: string,
    toLink: string)

  /** A completed activity, typed and located by its start event. */
  datatype ActivityEvent = ActivityEvent(
    person: string,
    actType: string,
    link: string,
    tStart: int,
    tEnd: int)

  /** A trip whose car has entered traffic but not yet left it. */
  datatype OpenTrip = OpenTrip(
    person: string,
    vehicle: string,
    tStart: int,
    fromLink: string,
    distance: real,
    currentLink: string)

  /** An activity that has started but not yet ended. */
  datatype OpenActivity = OpenActivity(actType: string, link: string, tStart: int)

  /** One `<event>` of the log, decoded: one case per event type the reducer
      reacts to, each carrying only the attributes it reads, and a catch-all. */
  datatype Event =
    | PersonEntersVehicle(time: int, person: string, vehicle: string)
    | VehicleEntersTraffic(time: int, vehicle: string, link: string)
    | LinkEntered(time: int, vehicleAttr: Option<string>, linkAttr: Option<string>)
    | VehicleLeavesTraffic(time: int, vehicle: string, link: string)
    | ActStart(time: int, person: string, actType: string, link: string)
    | ActEnd(time: int, person: string)
    | Ignored(time: int, kind: string)

  /** An `<event>` element as read: its `type` (empty when absent), its `time`
      (0 when absent) and its remaining attributes. */
  datatype RawEvent = RawEvent(kind: string, time: int, attrs: map<string, string>)

  const PersonEntersVehicleType: string := "PersonEntersVehicle"
  const VehicleEntersTrafficType: string := "vehicle enters traffic"
  const LinkEnteredType: string := "entered link"
  const VehicleLeavesTrafficType: string := "vehicle leaves traffic"
  const ActStartType: string := "actstart"
  const ActEndType: string := "actend"

  /** Fallback for an activity's missing type or link. */
  const Unknown: string := "unknown"

  predicate IsHandledType(kind: string) {
    kind in {PersonEntersVehicleType, VehicleEntersTrafficType, LinkEnteredType,
             VehicleLeavesTrafficType, ActStartType, ActEndType}
  }

  function Lookup(attrs: map<string, string>, key: string): Option<string> {
    if key in attrs then Some(attrs[key]) else None
  }

  /** The attributes an event type reads with `elem.attrib[...]`, in the order
      it reads them: a missing one raises `KeyError`. */
  function Required(kind: string): seq<string> {
    if kind == PersonEntersVehicleType then ["person", "vehicle"]
    else if kind == VehicleEntersTrafficType || kind == VehicleLeavesTrafficType then ["vehicle", "link"]
    else if kind == ActStartType || kind == ActEndType then ["person"]
    else []
  }

  /** The attributes an event type reads with `elem.attrib.get(...)` and keeps. */
  function Optional(kind: string): seq<string> {
    if kind == LinkEnteredType then ["vehicle", "link"]
    else if kind == ActStartType then ["actType", "link"]
    else []
  }

  /** Reads the attributes an event type needs. A required attribute that is
      missing raises `KeyError` in the reducer; `Err` carries the name of the
      first one read. A decoded event, written back as an element, has the
      element's type and time and carries every required attribute and every
      optional one present with the element's value. */
  function Decode(r: RawEvent): (d: Result<Event, string>)
    ensures d.Ok? ==> d.value.time == r.time
    ensures !IsHandledType(r.kind) ==> d == Ok(Ignored(r.time, r.kind))
    ensures d.Err? <==> exists k :: k in Required(r.kind) && k !in r.attrs
    ensures d.Err? ==>
      exists i ::
        && 0 <= i < |Required(r.kind)| && d.error == Required(r.kind)[i] && d.error !in r.attrs
        && (forall j :: 0 <= j < i ==> Required(r.kind)[j] in r.attrs)
    ensures d.Ok? ==> Encode(d.value).kind == r.kind
    ensures d.Ok? ==> forall k :: k in Required(r.kind) ==>
      k in Encode(d.value).attrs && Encode(d.value).attrs[k] == r.attrs[k]
    ensures d.Ok? ==> forall k :: k in Optional(r.kind) && k in r.attrs ==>
      k in Encode(d.value).attrs && Encode(d.value).attrs[k] == r.attrs[k]
  {
    var a := r.attrs;
    if r.kind == PersonEntersVehicleType then
      if "person" !in a then Err("person")
      else if "vehicle" !in a then Err("vehicle")
      else Ok(PersonEntersVehicle(r.time, a["person"], a["vehicle"]))
    else if r.kind == VehicleEntersTrafficType then
      if "vehicle" !in a then Err("vehicle")
      else if "link" !in a then Err("link")
      else Ok(VehicleEntersTraffic(r.time, a["vehicle"], a["link"]))
    else if r.kind == LinkEnteredType then
      Ok(LinkEntered(r.time, Lookup(a, "vehicle"), Lookup(a, "link")))
    else if r.kind == VehicleLeavesTrafficType then
      if "vehicle" !in a then Err("vehicle")
      else if "link" !in a then Err("link")
      else Ok(VehicleLeavesTraffic(r.time, a["vehicle"], a["link"]))
    else if r.kind == ActStartType then
      if "person" !in a then Err("person")
      else Ok(ActStart(r.time, a["person"], Lookup(a, "actType").GetOr(Unknown),
                       Lookup(a, "link").GetOr(Unknown)))
    else if r.kind == ActEndType then
      if "person" !in a then Err("person")
      else Ok(ActEnd(r.time, a["person"]))
    else Ok(Ignored(r.time, r.kind))
  }

  function OptionalAttr(key: string, v: Option<string>): map<string, string> {
    match v
    case Some(x) => map[key := x]
    case None => map[]
  }

  /** The element an event is decoded from, with exactly the attributes it reads. */
  function Encode(e: Event): RawEvent {
    match e
    case PersonEntersVehicle(t, p, v) =>
      RawEvent(PersonEntersVehicleType, t, map["person" := p, "vehicle" := v])
    case VehicleEntersTraffic(t, v, l) =>
      RawEvent(VehicleEntersTrafficType, t, map["vehicle" := v, "link" := l])
    case LinkEntered(t, v, l) =>
      RawEvent(LinkEnteredType, t, OptionalAttr("vehicle", v) + OptionalAttr("link", l))
    case VehicleLeavesTraffic(t, v, l) =>
      RawEvent(VehicleLeavesTrafficType, t, map["vehicle" := v, "link" := l])
    case ActStart(t, p, a, l) =>
      RawEvent(ActStartType, t, map["person" := p, "actType" := a, "link" := l])
    case ActEnd(t, p) =>
      RawEvent(ActEndType, t, map["person" := p])
    case Ignored(t, k) =>
      RawEvent(k, t, map[])
  }

  /** An activity start records its type and link when present and "unknown"
      for each one that is missing, independently of the other. */
  lemma ActStartDefaults(t: int, p: string, attrs: map<string, string>)
    requires "person" in attrs && attrs["person"] == p
    ensures Decode(RawEvent(ActStartType, t, attrs)).Ok?
    ensures var e := Decode(RawEvent(ActStartType, t, attrs)).value;
      && e == ActStart(t, p, e.actType, e.link)
      && e.actType == (if "actType" in attrs then attrs["actType"] else Unknown)
      && e.link == (if "link" in attrs then attrs["link"] else Unknown)
  {
  }

  /** A link event without a vehicle or a link is kept with the missing
      attribute absent, never an error. */
  lemma LinkEnteredMissing(t: int, attrs: map<string, string>)
    ensures Decode(RawEvent(LinkEnteredType, t, attrs)).Ok?
    ensures "vehicle" !in attrs ==> Decode(RawEvent(LinkEnteredType, t, attrs)).value.vehicleAttr == None
    ensures "link" !in attrs ==> Decode(RawEvent(LinkEnteredType, t, attrs)).value.linkAttr == None
  {
  }

  /** Decoding an encoded event gives it back, provided a catch-all event does
      not carry the name of a handled type. */
  lemma DecodeEncode(e: Event)
    requires e.Ignored? ==> !IsHandledType(e.kind)
    ensures Decode(Encode(e)) == Ok(e)
  {
    match e
    case LinkEntered(t, v, l) =>
      var a := Encode(e).attrs;
      assert Lookup(a, "vehicle") == v;
      assert Lookup(a, "link") == l;
    case _ =>
  }

  /** Decodes every element; the first malformed one aborts the whole pass. */
  function DecodeAll(raws: seq<RawEvent>): (d: Result<seq<Event>, string>)
    ensures d.Ok? ==> (|d.value| == |raws|
      && forall i :: 0 <= i < |raws| ==> Decode(raws[i]) == Ok(d.value[i]))
    ensures d.Err? <==> exists i :: 0 <= i < |raws| && Decode(raws[i]).Err?
    decreases |raws|
  {
    if |raws| == 0 then Ok([])
    else
      match Decode(raws[0])
      case Err(k) => Err(k)
      case Ok(e) =>
        match DecodeAll(raws[1..])
        case Err(k) =>
          Err(k)
        case Ok(es) =>
          assert forall i :: 1 <= i < |raws| ==> raws[i] == raws[1..][i - 1];
          Ok([e] + es)
  }

  // ---------------------------------------------------------------------
  // The reducer's state and its transitions

  /** The inputs fixed for a whole pass: link lengths from the network and the
      optional set of vehicles to keep. */
  datatype Config = Config(linkLength: map<string, real>, carFilter: Option<set<string>>)

  /** Everything the reducer carries from one event to the next. */
  datatype State = State(
    openTrips: map<string, OpenTrip>,
    openActivities: map<string, OpenActivity>,
    personToVehicle: map<string, string>,
    vehicleToPerson: map<string, string>,
    trips: seq<Trip>,
    activities: seq<ActivityEvent>)

  const Initial: State := State(map[], map[], map[], map[], [], [])

  /** The filter admits `v`; an absent or empty filter admits every vehicle. */
  predicate Admits(filter: Option<set<string>>, v: string) {
    filter.None? || filter.value == {} || v in filter.value
  }

  /** The driver recorded for `v`, or `v` itself when none boarded before. */
  function DriverOf(s: State, v: string): string {
    if v in s.vehicleToPerson then s.vehicleToPerson[v] else v
  }

  function Step(c: Config, s: State, e: Event): State {
    match e
    case PersonEntersVehicle(_, p, v) =>
      if IsCar(v) && v !in s.vehicleToPerson then
        s.(personToVehicle := s.personToVehicle[p := v],
           vehicleToPerson := s.vehicleToPerson[v := p])
      else s
    case VehicleEntersTraffic(t, v, l) =>
      if IsCar(v) && Admits(c.carFilter, v) then
        s.(openTrips := s.openTrips[v := OpenTrip(DriverOf(s, v), v, t, l, 0.0, l)])
      else s
    case LinkEntered(_, Some(v), Some(l)) =>
      if v in s.openTrips && l in c.linkLength then
        var ot := s.openTrips[v];
        s.(openTrips := s.openTrips[v := ot.(distance := ot.distance + c.linkLength[l],
                                             currentLink := l)])
      else s
    case LinkEntered(_, _, _) =>
      s
    case VehicleLeavesTraffic(t, v, l) =>
      if v in s.openTrips then
        var ot := s.openTrips[v];
        s.(openTrips := s.openTrips - {v},
           trips := s.trips + [Trip(ot.person, v, ot.tStart, t, ot.distance, ot.fromLink, l)])
      else s
    case ActStart(t, p, a, l) =>
      s.(openActivities := s.openActivities[p := OpenActivity(a, l, t)])
    case ActEnd(t, p) =>
      if p in s.openActivities then
        var oa := s.openActivities[p];
        s.(openActivities := s.openActivities - {p},
           activities := s.activities + [ActivityEvent(p, oa.actType, oa.link, oa.tStart, t)])
      else s
    case Ignored(_, _) =>
      s
  }

  /** Folds `Step` over `es`, first event first. */
  function Run(c: Config, s: State, es: seq<Event>): State
    decreases |es|
  {
    if |es| == 0 then s else Run(c, Step(c, s, es[0]), es[1..])
  }

  /** What the reducer hands back; `stuckTrips` counts the trips still open at
      the end of the stream, which are discarded. Open activities are dropped
      without a count. */
  datatype ParseResult = ParseResult(
    trips: seq<Trip>,
    activities: seq<ActivityEvent>,
    personToVehicle: map<string, string>,
    stuckTrips: nat)

  function Finish(s: State): (r: ParseResult)
    ensures r.stuckTrips == |s.openTrips.Keys|
    ensures r.trips == s.trips && r.activities == s.activities
  {
    ParseResult(s.trips, s.activities, s.personToVehicle, |s.openTrips.Keys|)
  }

  /** `parse_events`: decode the log, fold the reducer over it from the empty
      state and report the result. */
  function ParseEvents(c: Config, raws: seq<RawEvent>): (r: Result<ParseResult, string>)
    ensures r.Err? <==> exists i :: 0 <= i < |raws| && Decode(raws[i]).Err?
  {
    match DecodeAll(raws)
    case Err(k) => Err(k)
    case Ok(es) => Ok(Finish(Run(c, Initial, es)))
  }

  // ---------------------------------------------------------------------
  // Single transitions

  /** Only the first boarding of a car binds a driver; later boardings of the
      same car, and boardings of anything else, change neither map. */
  lemma StepBoarding(c: Config, s: State, t: int, p: string, v: string)
    ensures var s' := Step(c, s, PersonEntersVehicle(t, p, v));
      && (v in s.vehicleToPerson || !IsCar(v) ==> s' == s)
      && (v !in s.vehicleToPerson && IsCar(v) ==>
            s'.vehicleToPerson == s.vehicleToPerson[v := p]
            && s'.personToVehicle == s.personToVehicle[p := v]
            && s'.openTrips == s.openTrips && s'.trips == s.trips)
  {
  }

  /** Entering traffic opens a fresh trip for an admitted car, attributed to its
      recorded driver or else to the vehicle id, and replaces any trip already
      open for it; any other vehicle leaves the state unchanged. */
  lemma StepEntersTraffic(c: Config, s: State, t: int, v: string, l: string)
    ensures var s' := Step(c, s, VehicleEntersTraffic(t, v, l));
      && (!IsCar(v) || !Admits(c.carFilter, v) ==> s' == s)
      && (IsCar(v) && Admits(c.carFilter, v) ==>
            && v in s'.openTrips
            && s'.openTrips[v] == OpenTrip(DriverOf(s, v), v, t, l, 0.0, l)
            && (forall w :: w != v ==> (w in s'.openTrips <==> w in s.openTrips))
            && s'.trips == s.trips)
  {
  }

  /** Entering a link adds its length to the vehicle's open trip and makes it
      the trip's current link, only when both the trip and the link are known;
      otherwise nothing changes. The trip's driver, start and origin, every
      other vehicle's open trip, and everything outside the open trips stay as
      they were. */
  lemma StepLinkEntered(c: Config, s: State, t: int, v: Option<string>, l: Option<string>)
    ensures var s' := Step(c, s, LinkEntered(t, v, l));
      && (v.None? || l.None? || v.value !in s.openTrips || l.value !in c.linkLength ==> s' == s)
      && (v.Some? && l.Some? && v.value in s.openTrips && l.value in c.linkLength ==>
            var ot, ot' := s.openTrips[v.value], s'.openTrips[v.value];
            && ot'.distance == ot.distance + c.linkLength[l.value]
            && ot'.currentLink == l.value
            && ot'.person == ot.person && ot'.vehicle == ot.vehicle
            && ot'.tStart == ot.tStart && ot'.fromLink == ot.fromLink
            && s'.openTrips.Keys == s.openTrips.Keys
            && (forall w :: w in s.openTrips && w != v.value ==> s'.openTrips[w] == s.openTrips[w])
            && s' == s.(openTrips := s'.openTrips))
  {
  }

  /** Leaving traffic closes the open trip into exactly one Trip that keeps its
      start and distance and ends at this event's time and link. */
  lemma StepLeavesTraffic(c: Config, s: State, t: int, v: string, l: string)
    ensures var s' := Step(c, s, VehicleLeavesTraffic(t, v, l));
      && (v !in s.openTrips ==> s' == s)
      && (v in s.openTrips ==>
            var ot := s.openTrips[v];
            && s'.trips == s.trips + [Trip(ot.person, v, ot.tStart, t, ot.distance, ot.fromLink, l)]
            && s'.openTrips.Keys == s.openTrips.Keys - {v})
  {
  }

  /** An activity start overwrites whatever was open for the person; an end
      closes the open activity with the start's type and link and the end's
      time, removing it, and is ignored when nothing is open. Neither touches
      trips or the driver bindings. */
  lemma StepActivities(c: Config, s: State, t: int, p: string, a: string, l: string)
    ensures var s' := Step(c, s, ActStart(t, p, a, l));
      && s'.openActivities == s.openActivities[p := OpenActivity(a, l, t)]
      && s'.activities == s.activities
      && SameTrips(s, s')
    ensures p !in s.openActivities ==> Step(c, s, ActEnd(t, p)) == s
    ensures p in s.openActivities ==>
      var oa := s.openActivities[p];
      var s' := Step(c, s, ActEnd(t, p));
      && s'.activities == s.activities + [ActivityEvent(p, oa.actType, oa.link, oa.tStart, t)]
      && s'.openActivities == s.openActivities - {p}
      && SameTrips(s, s')
  {
  }

  /** Two states agree on everything but the activities. */
  predicate SameTrips(s: State, s': State) {
    && s'.openTrips == s.openTrips && s'.trips == s.trips
    && s'.personToVehicle == s.personToVehicle && s'.vehicleToPerson == s.vehicleToPerson
  }

  /** An activity end with no start since the previous end emits nothing: each
      start pairs with the next end only. */
  lemma SecondEndEmitsNothing(c: Config, s: State, t1: int, t2: int, p: string)
    ensures var s1 := Step(c, s, ActEnd(t1, p));
      Step(c, s1, ActEnd(t2, p)) == s1
  {
  }

  /** An event of any other type leaves the state unchanged. */
  lemma StepIgnored(c: Config, s: State, e: Event)
    requires e.Ignored?
    ensures Step(c, s, e) == s
  {
  }

  // ---------------------------------------------------------------------
  // Whole runs

  lemma {:induction false} RunAppend(c: Config, s: State, a: seq<Event>, b: seq<Event>)
    ensures Run(c, s, a + b) == Run(c, Run(c, s, a), b)
    decreases |a|
  {
    if |a| == 0 {
      assert a + b == b;
    } else {
      assert (a + b)[0] == a[0];
      assert (a + b)[1..] == a[1..] + b;
      RunAppend(c, Step(c, s, a[0]), a[1..], b);
    }
  }

  /** Trips and activities are only ever appended. */
  lemma {:induction false} RunExtends(c: Config, s: State, es: seq<Event>)
    ensures |s.trips| <= |Run(c, s, es).trips| && Run(c, s, es).trips[..|s.trips|] == s.trips
    ensures |s.activities| <= |Run(c, s, es).activities|
      && Run(c, s, es).activities[..|s.activities|] == s.activities
    decreases |es|
  {
    if |es| > 0 {
      var s1 := Step(c, s, es[0]);
      StepExtends(c, s, es[0]);
      RunExtends(c, s1, es[1..]);
      PrefixOfPrefix(s.trips, s1.trips, Run(c, s1, es[1..]).trips);
      PrefixOfPrefix(s.activities, s1.activities, Run(c, s1, es[1..]).activities);
    }
  }

  /** One step only ever appends trips and activities. */
  lemma StepExtends(c: Config, s: State, e: Event)
    ensures |s.trips| <= |Step(c, s, e).trips| && Step(c, s, e).trips[..|s.trips|] == s.trips
    ensures |s.activities| <= |Step(c, s, e).activities|
      && Step(c, s, e).activities[..|s.activities|] == s.activities
  {
  }

  lemma PrefixOfPrefix<T>(a: seq<T>, b: seq<T>, c: seq<T>)
    requires |a| <= |b| && b[..|a|] == a
    requires |b| <= |c| && c[..|b|] == b
    ensures |a| <= |c| && c[..|a|] == a
  {
    assert c[..|a|] == c[..|b|][..|a|];
  }

  /** Every open or emitted trip belongs to an admitted car, keyed by its own
      vehicle, and every recorded driver binding is for a car. */
  ghost predicate Tracked(c: Config, s: State) {
    TripsTracked(c, s) && BindingsTracked(s)
  }

  ghost predicate TripsTracked(c: Config, s: State) {
    && (forall v :: v in s.openTrips ==>
          s.openTrips[v].vehicle == v && IsCar(v) && Admits(c.carFilter, v))
    && (forall i :: 0 <= i < |s.trips| ==>
          IsCar(s.trips[i].vehicle) && Admits(c.carFilter, s.trips[i].vehicle))
  }

  ghost predicate BindingsTracked(s: State) {
    && (forall v :: v in s.vehicleToPerson ==> IsCar(v))
    && (forall p :: p in s.personToVehicle ==> IsCar(s.personToVehicle[p]))
  }

  lemma StepTracked(c: Config, s: State, e: Event)
    requires Tracked(c, s)
    ensures Tracked(c, Step(c, s, e))
  {
    StepTripsTracked(c, s, e);
    StepBindingsTracked(c, s, e);
  }

  lemma StepTripsTracked(c: Config, s: State, e: Event)
    requires TripsTracked(c, s)
    ensures TripsTracked(c, Step(c, s, e))
  {
    var s' := Step(c, s, e);
    match e
    case VehicleLeavesTraffic(t, v, l) =>
      if v in s.openTrips {
        assert s'.trips == s.trips + [s'.trips[|s.trips|]];
        assert s'.trips[|s.trips|].vehicle == v;
      }
    case _ =>
  }

  lemma StepBindingsTracked(c: Config, s: State, e: Event)
    requires BindingsTracked(s)
    ensures BindingsTracked(Step(c, s, e))
  {
  }

  lemma {:induction false} RunTracked(c: Config, s: State, es: seq<Event>)
    requires Tracked(c, s)
    ensures Tracked(c, Run(c, s, es))
    decreases |es|
  {
    if |es| > 0 {
      StepTracked(c, s, es[0]);
      RunTracked(c, Step(c, s, es[0]), es[1..]);
    }
  }

  ghost predicate NonNegativeLengths(c: Config) {
    forall l :: l in c.linkLength ==> c.linkLength[l] >= 0.0
  }

  /** Open trips start at 0 m and only add link lengths. */
  ghost predicate DistancesNonNegative(s: State) {
    && (forall v :: v in s.openTrips ==> s.openTrips[v].distance >= 0.0)
    && (forall i :: 0 <= i < |s.trips| ==> s.trips[i].distance >= 0.0)
  }

  lemma {:induction false} RunDistancesNonNegative(c: Config, s: State, es: seq<Event>)
    requires NonNegativeLengths(c) && DistancesNonNegative(s)
    ensures DistancesNonNegative(Run(c, s, es))
    decreases |es|
  {
    if |es| > 0 {
      StepDistancesNonNegative(c, s, es[0]);
      RunDistancesNonNegative(c, Step(c, s, es[0]), es[1..]);
    }
  }

  lemma StepDistancesNonNegative(c: Config, s: State, e: Event)
    requires NonNegativeLengths(c) && DistancesNonNegative(s)
    ensures DistancesNonNegative(Step(c, s, e))
  {
  }

  /** Every trip the reducer reports is for an admitted car and, when no link
      has negative length, has a non-negative distance; every recorded driver
      is bound to a car. */
  lemma ParsedTripsTracked(c: Config, raws: seq<RawEvent>)
    requires ParseEvents(c, raws).Ok?
    ensures var r := ParseEvents(c, raws).value;
      && (forall i :: 0 <= i < |r.trips| ==>
            IsCar(r.trips[i].vehicle) && Admits(c.carFilter, r.trips[i].vehicle))
      && (forall p :: p in r.personToVehicle ==> IsCar(r.personToVehicle[p]))
      && (NonNegativeLengths(c) ==> forall i :: 0 <= i < |r.trips| ==> r.trips[i].distance >= 0.0)
  {
    var es := DecodeAll(raws).value;
    RunTracked(c, Initial, es);
    if NonNegativeLengths(c) {
      RunDistancesNonNegative(c, Initial, es);
    }
  }

  // ---------------------------------------------------------------------
  // Time order

  ghost predicate NonDecreasingTimes(es: seq<Event>) {
    forall i, j :: 0 <= i < j < |es| ==> es[i].time <= es[j].time
  }

  /** Nothing open started after `now`, and everything closed ends no earlier
      than it started. */
  ghost predicate TimeConsistent(s: State, now: int) {
    OpenBefore(s, now) && ClosedOrdered(s)
  }

  ghost predicate OpenBefore(s: State, now: int) {
    && (forall v :: v in s.openTrips ==> s.openTrips[v].tStart <= now)
    && (forall p :: p in s.openActivities ==> s.openActivities[p].tStart <= now)
  }

  ghost predicate ClosedOrdered(s: State) {
    && (forall i :: 0 <= i < |s.trips| ==> s.trips[i].tStart <= s.trips[i].tEnd)
    && (forall i :: 0 <= i < |s.activities| ==> s.activities[i].tStart <= s.activities[i].tEnd)
  }

  lemma {:induction false} RunTimeConsistent(c: Config, s: State, now: int, es: seq<Event>)
    requires TimeConsistent(s, now)
    requires NonDecreasingTimes(es)
    requires forall i :: 0 <= i < |es| ==> now <= es[i].time
    ensures TimeConsistent(Run(c, s, es), if |es| == 0 then now else es[|es| - 1].time)
    decreases |es|
  {
    if |es| > 0 {
      var s' := Step(c, s, es[0]);
      StepTimeConsistent(c, s, now, es[0]);
      RunTimeConsistent(c, s', es[0].time, es[1..]);
    }
  }

  lemma StepTimeConsistent(c: Config, s: State, now: int, e: Event)
    requires TimeConsistent(s, now) && now <= e.time
    ensures TimeConsistent(Step(c, s, e), e.time)
  {
    StepOpenBefore(c, s, now, e);
    StepClosedOrdered(c, s, now, e);
  }

  lemma StepOpenBefore(c: Config, s: State, now: int, e: Event)
    requires OpenBefore(s, now) && now <= e.time
    ensures OpenBefore(Step(c, s, e), e.time)
  {
  }

  lemma StepClosedOrdered(c: Config, s: State, now: int, e: Event)
    requires TimeConsistent(s, now) && now <= e.time
    ensures ClosedOrdered(Step(c, s, e))
  {
  }

  /** With timestamps in non-decreasing order every trip and activity ends no
      earlier than it starts (a trip may end at its own start time). */
  lemma ParsedTimesOrdered(c: Config, raws: seq<RawEvent>)
    requires forall i, j :: 0 <= i < j < |raws| ==> raws[i].time <= raws[j].time
    requires ParseEvents(c, raws).Ok?
    ensures var r := ParseEvents(c, raws).value;
      && (forall i :: 0 <= i < |r.trips| ==> r.trips[i].tStart <= r.trips[i].tEnd)
      && (forall i :: 0 <= i < |r.activities| ==> r.activities[i].tStart <= r.activities[i].tEnd)
  {
    var es := DecodeAll(raws).value;
    DecodedTimesOrdered(raws);
    if |es| > 0 {
      RunTimeConsistent(c, Initial, es[0].time, es);
    }
  }

  lemma DecodedTimesOrdered(raws: seq<RawEvent>)
    requires forall i, j :: 0 <= i < j < |raws| ==> raws[i].time <= raws[j].time
    requires DecodeAll(raws).Ok?
    ensures NonDecreasingTimes(DecodeAll(raws).value)
  {
    var es := DecodeAll(raws).value;
    forall i | 0 <= i < |es| ensures es[i].time == raws[i].time {
      assert Decode(raws[i]) == Ok(es[i]);
    }
  }

  // ---------------------------------------------------------------------
  // Driver identity

  /** First occupant wins: once a car has a recorded driver, no later event
      changes it. */
  lemma {:induction false} DriverBindingPersists(c: Config, s: State, es: seq<Event>, v: string)
    requires v in s.vehicleToPerson
    ensures v in Run(c, s, es).vehicleToPerson
    ensures Run(c, s, es).vehicleToPerson[v] == s.vehicleToPerson[v]
    decreases |es|
  {
    if |es| > 0 {
      DriverBindingPersists(c, Step(c, s, es[0]), es[1..], v);
    }
  }

  // ---------------------------------------------------------------------
  // Trip contents

  /** The length `e` adds to `v`'s open trip: the length of a known link the
      vehicle enters, and nothing for any other event. */
  function LinkGain(c: Config, v: string, e: Event): real {
    match e
    case LinkEntered(_, Some(w), Some(l)) =>
      if w == v && l in c.linkLength then c.linkLength[l] else 0.0
    case _ => 0.0
  }

  function LinkSum(c: Config, v: string, es: seq<Event>): real
    decreases |es|
  {
    if |es| == 0 then 0.0 else LinkGain(c, v, es[0]) + LinkSum(c, v, es[1..])
  }

  /** `e` neither enters nor leaves traffic with vehicle `v`. */
  predicate KeepsTripOf(v: string, e: Event) {
    !(e.VehicleEntersTraffic? && e.vehicle == v) && !(e.VehicleLeavesTraffic? && e.vehicle == v)
  }

  /** While nothing reopens or closes it, an open trip keeps its driver, start
      and origin and gains exactly the lengths of the known links its vehicle
      enters. */
  lemma {:induction false} OpenTripAccumulates(c: Config, s: State, v: string, es: seq<Event>)
    requires v in s.openTrips
    requires forall i :: 0 <= i < |es| ==> KeepsTripOf(v, es[i])
    ensures var s' := Run(c, s, es);
      && v in s'.openTrips
      && s'.openTrips[v].person == s.openTrips[v].person
      && s'.openTrips[v].tStart == s.openTrips[v].tStart
      && s'.openTrips[v].fromLink == s.openTrips[v].fromLink
      && s'.openTrips[v].distance == s.openTrips[v].distance + LinkSum(c, v, es)
    decreases |es|
  {
    if |es| > 0 {
      var s1 := Step(c, s, es[0]);
      assert s1.openTrips[v].distance == s.openTrips[v].distance + LinkGain(c, v, es[0]);
      OpenTripAccumulates(c, s1, v, es[1..]);
    }
  }

  /** A car that enters traffic and later leaves it, with no other entry or exit
      of that car in between, yields one Trip: its driver as recorded when it
      entered (else its own id), the entry time and link, the exit time and link,
      and the summed lengths of the known links it entered in between. */
  lemma TripFromSegment(c: Config, s: State, t0: int, v: string, l0: string,
                        es: seq<Event>, t1: int, l1: string)
    requires IsCar(v) && Admits(c.carFilter, v)
    requires forall i :: 0 <= i < |es| ==> KeepsTripOf(v, es[i])
    ensures var s' := Run(c, s, [VehicleEntersTraffic(t0, v, l0)] + es + [VehicleLeavesTraffic(t1, v, l1)]);
      && |s'.trips| > 0
      && s'.trips[|s'.trips| - 1] == Trip(DriverOf(s, v), v, t0, t1, LinkSum(c, v, es), l0, l1)
      && v !in s'.openTrips
  {
    var enter := [VehicleEntersTraffic(t0, v, l0)];
    var leave := [VehicleLeavesTraffic(t1, v, l1)];
    var s1 := Run(c, s, enter);
    assert enter[1..] == [];
    assert Run(c, s, enter) == Run(c, Step(c, s, enter[0]), enter[1..]);
    assert s1 == Step(c, s, enter[0]);
    OpenTripAccumulates(c, s1, v, es);
    RunAppend(c, s, enter, es);
    RunAppend(c, s, enter + es, leave);
    var s2 := Run(c, s1, es);
    assert leave[1..] == [];
    assert Run(c, s2, leave) == Step(c, s2, leave[0]);
  }

  /** Without an exit event a vehicle gets no new Trip, and a trip it has open
      stays open. */
  lemma {:induction false} NoExitNoTrip(c: Config, s: State, v: string, es: seq<Event>)
    requires forall i :: 0 <= i < |es| ==> !(es[i].VehicleLeavesTraffic? && es[i].vehicle == v)
    ensures var s' := Run(c, s, es);
      && |s.trips| <= |s'.trips|
      && s'.trips[..|s.trips|] == s.trips
      && (forall i :: |s.trips| <= i < |s'.trips| ==> s'.trips[i].vehicle != v)
      && (v in s.openTrips ==> v in s'.openTrips)
    decreases |es|
  {
    if |es| > 0 {
      var s1 := Step(c, s, es[0]);
      StepNoExit(c, s, v, es[0]);
      NoExitNoTrip(c, s1, v, es[1..]);
      var s' := Run(c, s1, es[1..]);
      PrefixOfPrefix(s.trips, s1.trips, s'.trips);
      forall i | |s.trips| <= i < |s'.trips| ensures s'.trips[i].vehicle != v {
        if i < |s1.trips| {
          assert s'.trips[i] == s'.trips[..|s1.trips|][i];
        }
      }
    }
  }

  lemma StepNoExit(c: Config, s: State, v: string, e: Event)
    requires !(e.VehicleLeavesTraffic? && e.vehicle == v)
    ensures var s' := Step(c, s, e);
      && |s.trips| <= |s'.trips|
      && s'.trips[..|s.trips|] == s.trips
      && (forall i :: |s.trips| <= i < |s'.trips| ==> s'.trips[i].vehicle != v)
      && (v in s.openTrips ==> v in s'.openTrips)
  {
  }

  /** A car that enters traffic and never leaves it afterwards produces no
      Trip from that entry and is counted among the stuck trips. */
  lemma StuckTripCounted(c: Config, pre: seq<Event>, t: int, v: string, l: string, post: seq<Event>)
    requires IsCar(v) && Admits(c.carFilter, v)
    requires forall i :: 0 <= i < |post| ==> !(post[i].VehicleLeavesTraffic? && post[i].vehicle == v)
    ensures var s1 := Run(c, Initial, pre + [VehicleEntersTraffic(t, v, l)]);
      var r := Finish(Run(c, Initial, pre + [VehicleEntersTraffic(t, v, l)] + post));
      && r.stuckTrips >= 1
      && (forall i :: |s1.trips| <= i < |r.trips| ==> r.trips[i].vehicle != v)
  {
    var enter := [VehicleEntersTraffic(t, v, l)];
    RunAppend(c, Initial, pre, enter);
    var s0 := Run(c, Initial, pre);
    var s1 := Run(c, Initial, pre + enter);
    assert enter[1..] == [];
    assert Run(c, s0, enter) == Step(c, s0, enter[0]);
    assert v in s1.openTrips;
    RunAppend(c, Initial, pre + enter, post);
    NoExitNoTrip(c, s1, v, post);
    var s2 := Run(c, s1, post);
    assert v in s2.openTrips.Keys;
  }

  /** The one-trip example: a car enters traffic on L1 at 3600 s, enters L2
      (500 m) at 3650 s and leaves on L2 at 3700 s. */
  lemma OneTripExample()
    ensures var c := Config(map["L2" := 500.0], None);
      var r := Finish(Run(c, Initial, [VehicleEntersTraffic(3600, "v1:car", "L1"),
                                       LinkEntered(3650, Some("v1:car"), Some("L2")),
                                       VehicleLeavesTraffic(3700, "v1:car", "L2")]));
      r.trips == [Trip("v1:car", "v1:car", 3600, 3700, 500.0, "L1", "L2")] && r.stuckTrips == 0
  {
    var c := Config(map["L2" := 500.0], None);
    assert IsCar("v1:car") by {
      assert "v1:car"[2..] == CarSuffix;
    }
    var e0 := VehicleEntersTraffic(3600, "v1:car", "L1");
    var e1 := LinkEntered(3650, Some("v1:car"), Some("L2"));
    var e2 := VehicleLeavesTraffic(3700, "v1:car", "L2");
    var s1 := Step(c, Initial, e0);
    var s2 := Step(c, s1, e1);
    var s3 := Step(c, s2, e2);
    assert s3.openTrips == map[];
    assert [e0, e1, e2][1..] == [e1, e2];
    assert [e1, e2][1..] == [e2];
    assert [e2][1..] == [];
    assert Run(c, s3, []) == s3;
    assert Run(c, s2, [e2]) == s3;
    assert Run(c, s1, [e1, e2]) == s3;
    assert Run(c, Initial, [e0, e1, e2]) == s3;
  }
}

=== FILE: matching.dfy ===
/** Enriching the timetable with activities: each parked episode looks up the
    plan rows of its driver (the vehicle id with ":car" removed) on its link
    and takes the first; with none it becomes "unknown" and is placed at the
    link's end node. The copy in timetable_builder.py takes any such row; the
    copy in plans_parser.py only one whose start lies strictly inside the
    parking window, and it marks driving rows "unknown" as well. `Variant`
    names the two, as for the plans reader they come with. */
module Matching {
  import opened Common
  import opened Events
  import opened Timetable
  import opened Plans

  datatype Node = Node(x: real, y: real)

  datatype Link = Link(fromNode: string, toNode: string, length: real)

  /** The road network: links and nodes by id. */
  datatype Network = Network(links: map<string, Link>, nodes: map<string, Node>)

  /** A timetable row with the columns the matcher adds. */
  datatype Enriched = Enriched(
    episode: Episode,
    person: Option<string>,
    activityType: Option<string>,
    x: Option<real>,
    y: Option<real>)

  /** The driver of a vehicle: its id with every ":car" removed. */
  function PersonOf(vehicle: string): string {
    RemoveAll(vehicle, CarSuffix)
  }

  /** The plans_parser.py copy wants the activity to start strictly inside
      the parking window; the other copy has no window. */
  predicate InWindow(v: Variant, ep: Episode, p: PlanRow) {
    v == InBuilder || (ep.tStart < p.startTime && p.startTime < ep.tEnd)
  }

  /** The plan row may describe what happens during the parked episode. */
  predicate Candidate(v: Variant, ep: Episode, p: PlanRow) {
    && ep.kind.Parked?
    && p.person == Some(PersonOf(ep.vehicle))
    && p.link == Some(ep.kind.link)
    && InWindow(v, ep, p)
  }

  /** The position of the first candidate in plans order. */
  function FirstCandidate(v: Variant, ep: Episode, plans: seq<PlanRow>): (r: Option<nat>)
    ensures r.Some? ==> r.value < |plans| && Candidate(v, ep, plans[r.value])
    ensures r.Some? ==> forall j :: 0 <= j < r.value ==> !Candidate(v, ep, plans[j])
    ensures r.None? <==> forall j :: 0 <= j < |plans| ==> !Candidate(v, ep, plans[j])
    decreases |plans|
  {
    if |plans| == 0 then None
    else if Candidate(v, ep, plans[0]) then Some(0)
    else
      match FirstCandidate(v, ep, plans[1..])
      case None => None
      case Some(i) => Some(i + 1)
  }

  /** The end node of a link, when both the link and the node are known. */
  function EndNode(net: Network, link: string): Option<Node> {
    if link in net.links && net.links[link].toNode in net.nodes then Some(net.nodes[net.links[link].toNode])
    else None
  }

  /** The enriched row of one episode. */
  function Enrich(v: Variant, plans: seq<PlanRow>, net: Network, ep: Episode): (r: Enriched)
    ensures r.episode == ep
    ensures ep.kind.Driving? ==>
              && r.person == None && r.x == None && r.y == None
              && r.activityType == (if v == InBuilder then None else Some(Unknown))
    ensures ep.kind.Parked? ==> r.person == Some(PersonOf(ep.vehicle))
    ensures (exists j :: 0 <= j < |plans| && Candidate(v, ep, plans[j])) ==>
              exists i ::
                && 0 <= i < |plans| && Candidate(v, ep, plans[i])
                && (forall j :: 0 <= j < i ==> !Candidate(v, ep, plans[j]))
                && r.activityType == Some(plans[i].activityType) && r.x == plans[i].x && r.y == plans[i].y
    ensures ep.kind.Parked? && (forall j :: 0 <= j < |plans| ==> !Candidate(v, ep, plans[j])) ==>
              && r.activityType == Some(Unknown)
              && (r.x.Some? <==> ep.kind.link in net.links && net.links[ep.kind.link].toNode in net.nodes)
              && (r.x.Some? ==> r.x.value == net.nodes[net.links[ep.kind.link].toNode].x)
              && (r.x.Some? <==> r.y.Some?)
              && (r.y.Some? ==> r.y.value == net.nodes[net.links[ep.kind.link].toNode].y)
  {
    match ep.kind
    case Driving(_) => Enriched(ep, None, if v == InBuilder then None else Some(Unknown), None, None)
    case Parked(link) =>
      var person := Some(PersonOf(ep.vehicle));
      match FirstCandidate(v, ep, plans)
      case Some(i) => Enriched(ep, person, Some(plans[i].activityType), plans[i].x, plans[i].y)
      case None =>
        match EndNode(net, link)
        case Some(n) => Enriched(ep, person, Some(Unknown), Some(n.x), Some(n.y))
        case None => Enriched(ep, person, Some(Unknown), None, None)
  }

  /** Parked episodes among `eps`. */
  function CountParked(eps: seq<Episode>): (n: nat)
    ensures n <= |eps|
    decreases |eps|
  {
    if |eps| == 0 then 0
    else CountParked(eps[..|eps| - 1]) + (if eps[|eps| - 1].kind.Parked? then 1 else 0)
  }

  /** Parked episodes among `eps` that find a candidate. */
  function CountMatched(v: Variant, plans: seq<PlanRow>, eps: seq<Episode>): (n: nat)
    ensures n <= CountParked(eps)
    decreases |eps|
  {
    if |eps| == 0 then 0
    else
      var ep := eps[|eps| - 1];
      CountMatched(v, plans, eps[..|eps| - 1]) + (if ep.kind.Parked? && FirstCandidate(v, ep, plans).Some? then 1 else 0)
  }

  /** `_match_activities` (variant `InBuilder`) and
      `match_activities_to_timetable` (variant `InParser`): every row
      enriched in place, and the numbers of parked rows matched and not. */
  method MatchActivities(v: Variant, timetable: seq<Episode>, plans: seq<PlanRow>, net: Network)
    returns (rows: seq<Enriched>, matched: nat, unmatched: nat)
    ensures |rows| == |timetable|
    ensures forall i :: 0 <= i < |rows| ==> rows[i] == Enrich(v, plans, net, timetable[i])
    ensures matched == CountMatched(v, plans, timetable)
    ensures matched + unmatched == CountParked(timetable)
  {
    rows := seq(|timetable|, k requires 0 <= k < |timetable| => Enrich(v, plans, net, timetable[k]));
    matched, unmatched := 0, 0;
    var i := 0;
    while i < |timetable|
      invariant 0 <= i <= |timetable|
      invariant matched == CountMatched(v, plans, timetable[..i])
      invariant matched + unmatched == CountParked(timetable[..i])
    {
      var ep := timetable[i];
      assert timetable[..i + 1][..i] == timetable[..i];
      if ep.kind.Parked? {
        if FirstCandidate(v, ep, plans).Some? {
          matched := matched + 1;
        } else {
          unmatched := unmatched + 1;
        }
      }
      i := i + 1;
    }
    assert timetable[..i] == timetable;
  }

  /** A car named after its driver is matched to that driver's plans. */
  lemma CarDriverMatches(p: string, ep: Episode, row: PlanRow)
    requires FreeOfCar(p) && ep.vehicle == p + CarSuffix && ep.kind.Parked?
    requires row.person == Some(p) && row.link == Some(ep.kind.link)
    ensures Candidate(InBuilder, ep, row)
    ensures Candidate(InParser, ep, row) <==> ep.tStart < row.startTime < ep.tEnd
  {
    RemoveCarSuffix(p);
  }

  /** Every row the windowed copy accepts, the other copy accepts too. */
  lemma WindowedMatchIsMatch(ep: Episode, plans: seq<PlanRow>)
    ensures FirstCandidate(InParser, ep, plans).Some? ==> FirstCandidate(InBuilder, ep, plans).Some?
  {
    if FirstCandidate(InParser, ep, plans).Some? {
      var i := FirstCandidate(InParser, ep, plans).value;
      assert Candidate(InBuilder, ep, plans[i]);
    }
  }

  /** The windowed copy never matches more parked rows than the other. */
  lemma {:induction false} WindowedMatchesFewer(plans: seq<PlanRow>, eps: seq<Episode>)
    ensures CountMatched(InParser, plans, eps) <= CountMatched(InBuilder, plans, eps)
    decreases |eps|
  {
    if |eps| > 0 {
      WindowedMatchesFewer(plans, eps[..|eps| - 1]);
      WindowedMatchIsMatch(eps[|eps| - 1], plans);
    }
  }

  /** When every plan row of the driver on the link starts inside the window,
      the two copies enrich a parked episode alike. */
  lemma AgreeInsideWindow(plans: seq<PlanRow>, net: Network, ep: Episode)
    requires ep.kind.Parked?
    requires forall j :: 0 <= j < |plans| && Candidate(InBuilder, ep, plans[j]) ==> InWindow(InParser, ep, plans[j])
    ensures Enrich(InBuilder, plans, net, ep) == Enrich(InParser, plans, net, ep)
  {
    assert forall j :: 0 <= j < |plans| ==> (Candidate(InBuilder, ep, plans[j]) <==> Candidate(InParser, ep, plans[j]));
  }

  /** An activity starting exactly when parking starts: the builder's copy
      takes it, the windowed copy falls back to "unknown". */
  lemma WindowEdgeExample()
    ensures var ep := Episode("p1:car", 100, 200, Parked("l1"));
            var row := PlanRow(Some("p1"), "home", Some("l1"), Some(1.0), Some(2.0), 100, None);
            var net := Network(map[], map[]);
            && Enrich(InBuilder, [row], net, ep).activityType == Some("home")
            && Enrich(InParser, [row], net, ep) == Enriched(ep, Some("p1"), Some(Unknown), None, None)
  {
    var ep := Episode("p1:car", 100, 200, Parked("l1"));
    var row := PlanRow(Some("p1"), "home", Some("l1"), Some(1.0), Some(2.0), 100, None);
    assert FreeOfCar("p1") by {
      forall i: nat | i < 2 ensures !OccursAt("p1", CarSuffix, i) { }
    }
    CarDriverMatches("p1", ep, row);
    assert FirstCandidate(InBuilder, ep, [row]) == Some(0);
    assert FirstCandidate(InParser, ep, [row]) == None;
  }

  /** Unmatched parked rows take the end node of their link when it resolves. */
  lemma FallbackExample()
    ensures var ep := Episode("p2:car", 0, 500, Parked("l9"));
            var net := Network(map["l9" := Link("n1", "n2", 10.0)], map["n2" := Node(5.0, 6.0)]);
            && Enrich(InBuilder, [], net, ep) == Enriched(ep, Some("p2"), Some(Unknown), Some(5.0), Some(6.0))
            && Enrich(InParser, [], net, ep) == Enriched(ep, Some("p2"), Some(Unknown), Some(5.0), Some(6.0))
  {
    assert FreeOfCar("p2") by {
      forall i: nat | i < 2 ensures !OccursAt("p2", CarSuffix, i) { }
    }
    RemoveCarSuffix("p2");
  }
}

=== FILE: plans.dfy ===
/** The activities of the plans file: for every person, the first plan marked
    selected, and in it the activity elements that are not simulation-internal
    interactions, each turned into a row with its clock times read as seconds.
    Two copies of this reader exist and differ in what they ignore and in how
    they read times; `Variant` names them. */
module Plans {
  import opened Common
  import opened Clock

  /** `InBuilder` is the reader inside timetable_builder.py, `InParser` the one
      in plans_parser.py. */
  datatype Variant = InBuilder | InParser

  /** The value of a plan's `selected` attribute that marks it as chosen. */
  const SelectedMark: string := "yes"

  /** The tag of the plan elements that are activities (the others are legs). */
  const ActivityTag: string := "activity"

  const PassengerInteraction: string := "car_passenger interaction"

  /** Activity types that are simulation bookkeeping rather than real
      activities. Only the builder's copy lists the passenger interaction. */
  function IgnoredTypes(v: Variant): set<string> {
    match v
    case InBuilder => {"car interaction", PassengerInteraction, "bike interaction", "pt interaction"}
    case InParser => {"car interaction", "bike interaction", "pt interaction"}
  }

  /** Each copy reads clock strings with its own `_to_seconds`. */
  function ToSeconds(v: Variant, t: Option<string>): Option<int> {
    match v
    case InBuilder => ToSecondsExact(t)
    case InParser => ToSecondsLenient(t)
  }

  /** A child of a plan: its tag and the attributes the reader looks at, each
      absent when the element does not carry it; coordinates already read as
      numbers. */
  datatype Element = Element(
    tag: string,
    actType: Option<string>,
    link: Option<string>,
    x: Option<real>,
    y: Option<real>,
    startTime: Option<string>,
    endTime: Option<string>)

  datatype Plan = Plan(selected: Option<string>, elements: seq<Element>)

  datatype Person = Person(id: Option<string>, plans: seq<Plan>)

  /** One row of the plans table. `endTime` is always absent for the builder's
      copy, which has no such column. */
  datatype PlanRow = PlanRow(
    person: Option<string>,
    activityType: string,
    link: Option<string>,
    x: Option<real>,
    y: Option<real>,
    startTime: int,
    endTime: Option<int>)

  /** The position of the first plan marked selected, if any. */
  function SelectedIndex(plans: seq<Plan>): (r: Option<nat>)
    ensures r.Some? ==> r.value < |plans| && plans[r.value].selected == Some(SelectedMark)
    ensures r.Some? ==> forall j :: 0 <= j < r.value ==> plans[j].selected != Some(SelectedMark)
    ensures r.None? ==> forall j :: 0 <= j < |plans| ==> plans[j].selected != Some(SelectedMark)
    decreases |plans|
  {
    if |plans| == 0 then None
    else if plans[0].selected == Some(SelectedMark) then Some(0)
    else
      match SelectedIndex(plans[1..])
      case None => None
      case Some(i) => Some(i + 1)
  }

  /** The element yields a row: it is an activity and its type (empty when
      missing) is not ignored. */
  predicate Kept(v: Variant, e: Element) {
    e.tag == ActivityTag && e.actType.GetOr("") !in IgnoredTypes(v)
  }

  /** The row of a kept element; a start time that is missing or unreadable
      becomes midnight, an end time stays absent. */
  function ToRow(v: Variant, pid: Option<string>, e: Element): PlanRow {
    PlanRow(pid, e.actType.GetOr(""), e.link, e.x, e.y,
            ToSeconds(v, e.startTime).GetOr(0),
            if v == InParser then ToSeconds(v, e.endTime) else None)
  }

  /** The rows of one plan's elements, in element order. */
  function Rows(v: Variant, pid: Option<string>, es: seq<Element>): (r: seq<PlanRow>)
    ensures |r| <= |es|
    ensures forall i :: 0 <= i < |r| ==> r[i].person == pid && r[i].activityType !in IgnoredTypes(v)
    decreases |es|
  {
    if |es| == 0 then []
    else (if Kept(v, es[0]) then [ToRow(v, pid, es[0])] else []) + Rows(v, pid, es[1..])
  }

  /** The rows a person contributes: those of the first selected plan, or
      none when no plan is selected. */
  function PersonRows(v: Variant, p: Person): seq<PlanRow> {
    match SelectedIndex(p.plans)
    case None => []
    case Some(i) => Rows(v, p.id, p.plans[i].elements)
  }

  function AllRows(v: Variant, persons: seq<Person>): seq<PlanRow>
    decreases |persons|
  {
    if |persons| == 0 then [] else PersonRows(v, persons[0]) + AllRows(v, persons[1..])
  }

  /** `parse_plans`. With no row at all the table has no `start_time_s`
      column and filling its gaps raises `KeyError`. */
  function ParsePlans(v: Variant, persons: seq<Person>): (r: Result<seq<PlanRow>, string>)
    ensures r.Err? <==> forall k :: 0 <= k < |persons| ==> PersonRows(v, persons[k]) == []
    ensures r.Ok? ==> |r.value| > 0 && r.value == AllRows(v, persons)
  {
    var rows := AllRows(v, persons);
    NoRowsIffNoPersonRows(v, persons);
    if |rows| == 0 then Err("start_time_s") else Ok(rows)
  }

  /** The rows of a plan are those of its elements taken one at a time, in
      element order (with `RowsOne`: one row for a kept element, none for any
      other). */
  lemma {:induction false} RowsConcat(v: Variant, pid: Option<string>, a: seq<Element>, b: seq<Element>)
    ensures Rows(v, pid, a + b) == Rows(v, pid, a) + Rows(v, pid, b)
    decreases |a|
  {
    if |a| > 0 {
      var e, r := a[0], a[1..];
      assert a == [e] + r;
      assert a + b == [e] + (r + b);
      RowsCons(v, pid, e, r);
      RowsCons(v, pid, e, r + b);
      RowsConcat(v, pid, r, b);
      ConcatAssoc(if Kept(v, e) then [ToRow(v, pid, e)] else [], Rows(v, pid, r), Rows(v, pid, b));
    } else {
      assert a + b == b;
    }
  }

  lemma RowsCons(v: Variant, pid: Option<string>, e: Element, r: seq<Element>)
    ensures Rows(v, pid, [e] + r) == (if Kept(v, e) then [ToRow(v, pid, e)] else []) + Rows(v, pid, r)
  {
    assert ([e] + r)[0] == e;
    assert ([e] + r)[1..] == r;
  }

  /** One element gives one row when kept and none otherwise; one person's
      table is that person's rows. */
  lemma RowsOne(v: Variant, pid: Option<string>, e: Element, p: Person)
    ensures Rows(v, pid, [e]) == if Kept(v, e) then [ToRow(v, pid, e)] else []
    ensures AllRows(v, [p]) == PersonRows(v, p)
  {
    assert [e][1..] == [];
    assert [p][1..] == [];
  }

  /** The table lists the persons' rows in person order: the table of a
      concatenation is the concatenation of the tables, and one person's table
      is that person's rows. */
  lemma {:induction false} AllRowsConcat(v: Variant, a: seq<Person>, b: seq<Person>)
    ensures AllRows(v, a + b) == AllRows(v, a) + AllRows(v, b)
    decreases |a|
  {
    if |a| > 0 {
      assert (a + b)[0] == a[0];
      assert (a + b)[1..] == a[1..] + b;
      AllRowsConcat(v, a[1..], b);
      var h := PersonRows(v, a[0]);
      assert h + (AllRows(v, a[1..]) + AllRows(v, b)) == (h + AllRows(v, a[1..])) + AllRows(v, b);
    } else {
      assert a + b == b;
    }
  }

  lemma {:induction false} NoRowsIffNoPersonRows(v: Variant, persons: seq<Person>)
    ensures AllRows(v, persons) == [] <==> forall k :: 0 <= k < |persons| ==> PersonRows(v, persons[k]) == []
    decreases |persons|
  {
    if |persons| > 0 {
      var head, rest := PersonRows(v, persons[0]), AllRows(v, persons[1..]);
      assert AllRows(v, persons) == head + rest;
      assert AllRows(v, persons) == [] <==> head == [] && rest == [];
      NoRowsIffNoPersonRows(v, persons[1..]);
      forall k | 0 < k < |persons| ensures persons[1..][k - 1] == persons[k] {}
    }
  }

  /** A row belongs to a plan's table exactly when some kept element of the
      plan produces it. */
  lemma {:induction false} RowsMembers(v: Variant, pid: Option<string>, es: seq<Element>, row: PlanRow)
    ensures row in Rows(v, pid, es) <==> exists e :: e in es && Kept(v, e) && row == ToRow(v, pid, e)
    decreases |es|
  {
    if |es| > 0 {
      RowsMembers(v, pid, es[1..], row);
      if row in Rows(v, pid, es[1..]) {
        var e :| e in es[1..] && Kept(v, e) && row == ToRow(v, pid, e);
        assert e in es;
      }
      if exists e :: e in es && Kept(v, e) && row == ToRow(v, pid, e) {
        var e :| e in es && Kept(v, e) && row == ToRow(v, pid, e);
        if e != es[0] {
          var k :| 0 <= k < |es| && es[k] == e;
          assert es[1..][k - 1] == e;
        }
      }
    }
  }

  /** Every row of the table comes from the first selected plan of some
      person and carries that person's id. */
  lemma {:induction false} RowsFromSelectedPlans(v: Variant, persons: seq<Person>, row: PlanRow)
    requires row in AllRows(v, persons)
    ensures exists k, i ::
              && 0 <= k < |persons| && SelectedIndex(persons[k].plans) == Some(i)
              && row.person == persons[k].id && row in Rows(v, persons[k].id, persons[k].plans[i].elements)
    decreases |persons|
  {
    if row in PersonRows(v, persons[0]) {
      var i := SelectedIndex(persons[0].plans).value;
      assert SelectedIndex(persons[0].plans) == Some(i);
    } else {
      RowsFromSelectedPlans(v, persons[1..], row);
      var k, i :|
        && 0 <= k < |persons[1..]| && SelectedIndex(persons[1..][k].plans) == Some(i)
        && row.person == persons[1..][k].id && row in Rows(v, persons[1..][k].id, persons[1..][k].plans[i].elements);
      assert persons[1..][k] == persons[k + 1];
    }
  }

  /** The table is the persons' rows one after another: a row is in it
      exactly when it is among some person's rows. */
  lemma {:induction false} AllRowsMembers(v: Variant, persons: seq<Person>, row: PlanRow)
    ensures row in AllRows(v, persons) <==> exists k :: 0 <= k < |persons| && row in PersonRows(v, persons[k])
    decreases |persons|
  {
    if |persons| > 0 {
      AllRowsMembers(v, persons[1..], row);
      if row in AllRows(v, persons[1..]) {
        var k :| 0 <= k < |persons[1..]| && row in PersonRows(v, persons[1..][k]);
        assert persons[1..][k] == persons[k + 1];
      }
      if exists k :: 0 <= k < |persons| && row in PersonRows(v, persons[k]) {
        var k :| 0 <= k < |persons| && row in PersonRows(v, persons[k]);
        if k > 0 {
          assert persons[1..][k - 1] == persons[k];
        }
      }
    }
  }

  /** Nothing is dropped: every kept element of a person's first selected plan
      is in the table, as that person's row, and the table is then not an
      error. */
  lemma KeptElementsListed(v: Variant, persons: seq<Person>, k: int, i: nat, e: Element)
    requires 0 <= k < |persons| && SelectedIndex(persons[k].plans) == Some(i)
    requires e in persons[k].plans[i].elements && Kept(v, e)
    ensures ToRow(v, persons[k].id, e) in AllRows(v, persons)
    ensures ParsePlans(v, persons).Ok? && ToRow(v, persons[k].id, e) in ParsePlans(v, persons).value
  {
    var row := ToRow(v, persons[k].id, e);
    RowsMembers(v, persons[k].id, persons[k].plans[i].elements, row);
    assert row in PersonRows(v, persons[k]);
    AllRowsMembers(v, persons, row);
  }

  /** Plans after the first selected one are never looked at. */
  lemma OnlyFirstSelectedPlan(v: Variant, id: Option<string>, plans: seq<Plan>, i: nat, later: seq<Plan>)
    requires SelectedIndex(plans) == Some(i)
    ensures PersonRows(v, Person(id, plans[..i + 1] + later)) == PersonRows(v, Person(id, plans))
  {
    var q := plans[..i + 1] + later;
    FirstSelectedAt(q, i);
    assert q[i] == plans[i];
  }

  /** A plan list whose first `i` plans are unselected and whose plan `i` is
      selected has `i` as its selected index. */
  lemma {:induction false} FirstSelectedAt(plans: seq<Plan>, i: nat)
    requires i < |plans| && plans[i].selected == Some(SelectedMark)
    requires forall j :: 0 <= j < i ==> plans[j].selected != Some(SelectedMark)
    ensures SelectedIndex(plans) == Some(i)
    decreases i
  {
    if i > 0 {
      FirstSelectedAt(plans[1..], i - 1);
    }
  }

  /** The builder's copy drops every activity the other copy drops, and the
      two differ exactly on the passenger interaction. */
  lemma KeptVariants(e: Element)
    ensures Kept(InBuilder, e) ==> Kept(InParser, e)
    ensures Kept(InParser, e) && !Kept(InBuilder, e) <==> e.tag == ActivityTag && e.actType == Some(PassengerInteraction)
  {
  }

  /** A missing or unreadable start time reads as midnight, and a clock
      string of digit runs (zero-padded, surrounded by whitespace, hours past
      23 included) as its seconds, in both copies. */
  lemma StartTimeRead(v: Variant, pid: Option<string>, e: Element, w1: string, a: string, b: string, c: string, w2: string)
    ensures e.startTime == None ==> ToRow(v, pid, e).startTime == 0
    ensures e.startTime.Some? && FieldsUnreadable(e.startTime.value) ==> ToRow(v, pid, e).startTime == 0
    ensures Digits(a) && Digits(b) && Digits(c) && Blank(w1) && Blank(w2)
            && e.startTime == Some(w1 + ClockString(a, b, c) + w2)
            ==> ToRow(v, pid, e).startTime == Seconds(Decimal(a), Decimal(b), Decimal(c))
  {
    if e.startTime.Some? {
      ClockReadable(e.startTime.value);
    }
    if Digits(a) && Digits(b) && Digits(c) && Blank(w1) && Blank(w2) {
      ClockRoundTrip(w1, a, b, c, w2);
    }
  }

  /** Only the plans_parser.py copy keeps end times; a missing or unreadable
      one stays absent, and a clock string of digit runs is read as its
      seconds. */
  lemma EndTimeRead(pid: Option<string>, e: Element, w1: string, a: string, b: string, c: string, w2: string)
    ensures ToRow(InBuilder, pid, e).endTime == None
    ensures e.endTime == None ==> ToRow(InParser, pid, e).endTime == None
    ensures e.endTime.Some? && FieldsUnreadable(e.endTime.value) ==> ToRow(InParser, pid, e).endTime == None
    ensures Digits(a) && Digits(b) && Digits(c) && Blank(w1) && Blank(w2)
            && e.endTime == Some(w1 + ClockString(a, b, c) + w2)
            ==> ToRow(InParser, pid, e).endTime == Some(Seconds(Decimal(a), Decimal(b), Decimal(c)))
  {
    if e.endTime.Some? {
      ClockReadable(e.endTime.value);
    }
    if Digits(a) && Digits(b) && Digits(c) && Blank(w1) && Blank(w2) {
      ClockRoundTrip(w1, a, b, c, w2);
    }
  }

  /** A start time with a fourth field is midnight for the builder's copy but
      read for the other. */
  lemma ExtraFieldStartTime(pid: Option<string>, e: Element, a: string, b: string, c: string, extra: string)
    requires Digits(a) && Digits(b) && Digits(c)
    requires e.startTime == Some(ClockString(a, b, c) + ":" + extra)
    ensures ToRow(InBuilder, pid, e).startTime == 0
    ensures ToRow(InParser, pid, e).startTime == Seconds(Decimal(a), Decimal(b), Decimal(c))
  {
    ExtraFieldsDiffer(a, b, c, extra);
  }
}

=== FILE: timetable.dfy ===
/** The episode stitcher: each vehicle's trips become an alternating sequence
    of parked and driving episodes over the day [0, 86400), and all vehicles'
    episodes are gathered, grouped by vehicle, and ordered by
    (vehicle id, start time). */
module Timetable {
  import opened Common
  import opened Events

  const DayStart: int := 0
  const DayEnd: int := 86400

  /** A parked episode has a link and no distance; a driving one the reverse. */
  datatype EpisodeKind = Parked(link: string) | Driving(distance: real)

  /** One row of the timetable, covering [tStart, tEnd). */
  datatype Episode = Episode(vehicle: string, tStart: int, tEnd: int, kind: EpisodeKind) {
    /** The `duration_s` column. */
    function Duration(): int {
      tEnd - tStart
    }
  }

  /** The driving episode of a trip. */
  function DriveOf(v: string, t: Trip): Episode {
    Episode(v, t.tStart, t.tEnd, Driving(t.distance))
  }

  /** The parked episode between two consecutive trips, at the first one's
      destination. */
  function GapBetween(v: string, a: Trip, b: Trip): Episode {
    Episode(v, a.tEnd, b.tStart, Parked(a.toLink))
  }

  /** Parked from midnight at the first trip's origin, when it starts after midnight. */
  function Leading(v: string, trips: seq<Trip>): seq<Episode>
    requires |trips| > 0
  {
    if trips[0].tStart > DayStart then [Episode(v, DayStart, trips[0].tStart, Parked(trips[0].fromLink))]
    else []
  }

  /** Parked until the end of the day at the last trip's destination, when it
      ends before then. */
  function Trailing(v: string, trips: seq<Trip>): seq<Episode>
    requires |trips| > 0
  {
    var last := trips[|trips| - 1];
    if last.tEnd < DayEnd then [Episode(v, last.tEnd, DayEnd, Parked(last.toLink))]
    else []
  }

  /** One driving episode per trip, with a parked episode between each two
      consecutive trips (emitted even when it is empty). */
  function Body(v: string, trips: seq<Trip>): (r: seq<Episode>)
    requires |trips| > 0
    ensures |r| == 2 * |trips| - 1
    ensures forall i :: 0 <= i < |r| ==> r[i].vehicle == v
    decreases |trips|
  {
    [DriveOf(v, trips[0])]
      + (if |trips| > 1 then [GapBetween(v, trips[0], trips[1])] + Body(v, trips[1..]) else [])
  }

  /** The episodes of one vehicle's trips, taken in the order given. */
  function Stitch(v: string, trips: seq<Trip>): (r: seq<Episode>)
    requires |trips| > 0
    ensures forall i :: 0 <= i < |r| ==> r[i].vehicle == v
  {
    Leading(v, trips) + Body(v, trips) + Trailing(v, trips)
  }

  // ---------------------------------------------------------------------
  // Shape of one vehicle's episodes

  lemma {:induction false} BodyShape(v: string, trips: seq<Trip>)
    requires |trips| > 0
    ensures forall i :: 0 <= i < |trips| ==> Body(v, trips)[2 * i] == DriveOf(v, trips[i])
    ensures forall i :: 0 <= i < |trips| - 1 ==>
      Body(v, trips)[2 * i + 1] == GapBetween(v, trips[i], trips[i + 1])
    decreases |trips|
  {
    if |trips| > 1 {
      var rest := trips[1..];
      BodyShape(v, rest);
      var b := Body(v, trips);
      assert b == [DriveOf(v, trips[0])] + [GapBetween(v, trips[0], trips[1])] + Body(v, rest);
      forall i | 1 <= i < |trips|
        ensures b[2 * i] == DriveOf(v, trips[i])
      {
        assert b[2 * i] == Body(v, rest)[2 * (i - 1)];
        assert rest[i - 1] == trips[i];
      }
      forall i | 1 <= i < |trips| - 1
        ensures b[2 * i + 1] == GapBetween(v, trips[i], trips[i + 1])
      {
        assert b[2 * i + 1] == Body(v, rest)[2 * (i - 1) + 1];
        assert rest[i - 1] == trips[i] && rest[i] == trips[i + 1];
      }
    }
  }

  /** The episode list of one vehicle, position by position: an optional leading
      parked episode (exactly when the first trip starts after midnight), then
      each trip's driving episode copying its times and distance, separated by
      the parked gaps at the previous destination, then an optional trailing
      parked episode (exactly when the last trip ends before midnight). So there
      are 2N-1 + [first start > 0] + [last end < 86400] episodes. */
  lemma StitchShape(v: string, trips: seq<Trip>)
    requires |trips| > 0
    ensures var r := Stitch(v, trips);
      var n := |trips|;
      var first := trips[0];
      var last := trips[n - 1];
      var lead := if first.tStart > DayStart then 1 else 0;
      var trail := if last.tEnd < DayEnd then 1 else 0;
      && |r| == lead + 2 * n - 1 + trail
      && 2 * n - 1 <= |r| <= 2 * n + 1
      && (lead == 1 ==> r[0] == Episode(v, DayStart, first.tStart, Parked(first.fromLink)))
      && (forall i :: 0 <= i < n ==> r[lead + 2 * i] == DriveOf(v, trips[i]))
      && (forall i :: 0 <= i < n - 1 ==> r[lead + 2 * i + 1] == GapBetween(v, trips[i], trips[i + 1]))
      && (trail == 1 ==> r[|r| - 1] == Episode(v, last.tEnd, DayEnd, Parked(last.toLink)))
  {
    var r := Stitch(v, trips);
    var lead, body, trail := Leading(v, trips), Body(v, trips), Trailing(v, trips);
    assert r == lead + body + trail;
    assert |r| == |lead| + |body| + |trail|;
    if |lead| == 1 {
      assert r[0] == lead[0];
    }
    if |trail| == 1 {
      assert r[|r| - 1] == trail[0];
    }
    StitchDrives(v, trips);
    StitchGaps(v, trips);
  }

  lemma StitchDrives(v: string, trips: seq<Trip>)
    requires |trips| > 0
    ensures forall i :: 0 <= i < |trips| ==>
      Stitch(v, trips)[|Leading(v, trips)| + 2 * i] == DriveOf(v, trips[i])
  {
    var b := Body(v, trips);
    MiddleOf(Leading(v, trips), b, Trailing(v, trips));
    BodyShape(v, trips);
    forall i | 0 <= i < |trips|
      ensures Stitch(v, trips)[|Leading(v, trips)| + 2 * i] == DriveOf(v, trips[i])
    {
      assert b[2 * i] == DriveOf(v, trips[i]);
    }
  }

  lemma StitchGaps(v: string, trips: seq<Trip>)
    requires |trips| > 0
    ensures forall i :: 0 <= i < |trips| - 1 ==>
      Stitch(v, trips)[|Leading(v, trips)| + 2 * i + 1] == GapBetween(v, trips[i], trips[i + 1])
  {
    var b := Body(v, trips);
    MiddleOf(Leading(v, trips), b, Trailing(v, trips));
    BodyShape(v, trips);
    forall i | 0 <= i < |trips| - 1
      ensures Stitch(v, trips)[|Leading(v, trips)| + 2 * i + 1] == GapBetween(v, trips[i], trips[i + 1])
    {
      assert b[2 * i + 1] == GapBetween(v, trips[i], trips[i + 1]);
    }
  }

  lemma MiddleOf<T>(a: seq<T>, b: seq<T>, c: seq<T>)
    ensures forall k :: 0 <= k < |b| ==> (a + b + c)[|a| + k] == b[k]
  {
  }


  /** The driving episodes of an episode list, in order. */
  function Drivings(eps: seq<Episode>): seq<Episode>
    decreases |eps|
  {
    if |eps| == 0 then []
    else (if eps[0].kind.Driving? then [eps[0]] else []) + Drivings(eps[1..])
  }

  lemma {:induction false} DrivingsConcat(a: seq<Episode>, b: seq<Episode>)
    ensures Drivings(a + b) == Drivings(a) + Drivings(b)
    decreases |a|
  {
    if |a| == 0 {
      assert a + b == b;
    } else {
      var h := if a[0].kind.Driving? then [a[0]] else [];
      assert (a + b)[0] == a[0];
      assert (a + b)[1..] == a[1..] + b;
      DrivingsConcat(a[1..], b);
      assert Drivings(a + b) == h + (Drivings(a[1..]) + Drivings(b));
      assert Drivings(a) == h + Drivings(a[1..]);
    }
  }

  lemma {:induction false} BodyDrivings(v: string, trips: seq<Trip>)
    requires |trips| > 0
    ensures Drivings(Body(v, trips)) == seq(|trips|, i requires 0 <= i < |trips| => DriveOf(v, trips[i]))
    decreases |trips|
  {
    var head := [DriveOf(v, trips[0])];
    if |trips| == 1 {
      assert Body(v, trips) == head;
      assert Drivings(head) == head + Drivings([]);
    } else {
      var gap := [GapBetween(v, trips[0], trips[1])];
      BodyDrivings(v, trips[1..]);
      assert Body(v, trips) == head + (gap + Body(v, trips[1..]));
      DrivingsConcat(head, gap + Body(v, trips[1..]));
      DrivingsConcat(gap, Body(v, trips[1..]));
      assert Drivings(head) == head + Drivings([]);
      assert Drivings(gap) == Drivings([]);
    }
  }

  /** Exactly one driving episode per trip, in trip order, each copying its
      trip's start, end and distance; every other episode is parked. */
  lemma StitchDrivings(v: string, trips: seq<Trip>)
    requires |trips| > 0
    ensures Drivings(Stitch(v, trips)) == seq(|trips|, i requires 0 <= i < |trips| => DriveOf(v, trips[i]))
  {
    var lead := Leading(v, trips);
    var trail := Trailing(v, trips);
    DrivingsConcat(lead + Body(v, trips), trail);
    DrivingsConcat(lead, Body(v, trips));
    BodyDrivings(v, trips);
    assert Drivings(lead) == [] by {
      if |lead| > 0 {
        assert Drivings(lead) == Drivings(lead[1..]);
      }
    }
    assert Drivings(trail) == [] by {
      if |trail| > 0 {
        assert Drivings(trail) == Drivings(trail[1..]);
      }
    }
  }

  // ---------------------------------------------------------------------
  // Tiling the day

  /** The trips of one vehicle in time order, not overlapping, inside the day. */
  ghost predicate WellFormedDay(trips: seq<Trip>) {
    && (forall i :: 0 <= i < |trips| ==> DayStart <= trips[i].tStart <= trips[i].tEnd <= DayEnd)
    && (forall i :: 0 <= i < |trips| - 1 ==> trips[i].tEnd <= trips[i + 1].tStart)
  }

  /** The episodes, in order, cover [a, b) without gap or overlap. */
  ghost predicate Tiles(eps: seq<Episode>, a: int, b: int) {
    && |eps| > 0
    && eps[0].tStart == a
    && eps[|eps| - 1].tEnd == b
    && (forall i :: 0 <= i < |eps| - 1 ==> eps[i].tEnd == eps[i + 1].tStart)
    && (forall i :: 0 <= i < |eps| ==> eps[i].tStart <= eps[i].tEnd)
  }

  lemma TilesConcat(x: seq<Episode>, y: seq<Episode>, a: int, b: int, c: int)
    requires Tiles(x, a, b) && Tiles(y, b, c)
    ensures Tiles(x + y, a, c)
  {
    var xy := x + y;
    forall i | 0 <= i < |xy| - 1
      ensures xy[i].tEnd == xy[i + 1].tStart
    {
      if i < |x| - 1 {
      } else if i == |x| - 1 {
      } else {
        assert xy[i] == y[i - |x|] && xy[i + 1] == y[i - |x| + 1];
      }
    }
  }

  lemma {:induction false} BodyTiles(v: string, trips: seq<Trip>)
    requires |trips| > 0 && WellFormedDay(trips)
    ensures Tiles(Body(v, trips), trips[0].tStart, trips[|trips| - 1].tEnd)
    decreases |trips|
  {
    var head := [DriveOf(v, trips[0])];
    if |trips| > 1 {
      var rest := trips[1..];
      assert WellFormedDay(rest) by {
        forall i | 0 <= i < |rest| - 1 ensures rest[i].tEnd <= rest[i + 1].tStart {
          assert rest[i] == trips[i + 1] && rest[i + 1] == trips[i + 2];
        }
      }
      BodyTiles(v, rest);
      var gap := [GapBetween(v, trips[0], trips[1])];
      TilesConcat(gap, Body(v, rest), trips[0].tEnd, trips[1].tStart, trips[|trips| - 1].tEnd);
      TilesConcat(head, gap + Body(v, rest), trips[0].tStart, trips[0].tEnd, trips[|trips| - 1].tEnd);
      assert Body(v, trips) == head + (gap + Body(v, rest));
    }
  }

  /** For trips in time order, not overlapping and inside the day, the episodes
      tile [0, 86400) contiguously. */
  lemma StitchTiles(v: string, trips: seq<Trip>)
    requires |trips| > 0 && WellFormedDay(trips)
    ensures Tiles(Stitch(v, trips), DayStart, DayEnd)
  {
    var first := trips[0];
    var last := trips[|trips| - 1];
    var lead := Leading(v, trips);
    var body := Body(v, trips);
    var trail := Trailing(v, trips);
    BodyTiles(v, trips);
    if |lead| > 0 {
      TilesConcat(lead, body, DayStart, first.tStart, last.tEnd);
    } else {
      assert lead + body == body;
    }
    if |trail| > 0 {
      TilesConcat(lead + body, trail, DayStart, last.tEnd, DayEnd);
    } else {
      assert lead + body + trail == lead + body;
    }
  }

  // ---------------------------------------------------------------------
  // All vehicles

  function VehicleIds(trips: seq<Trip>): (r: seq<string>)
    ensures |r| == |trips| && forall i :: 0 <= i < |trips| ==> r[i] == trips[i].vehicle
  {
    seq(|trips|, i requires 0 <= i < |trips| => trips[i].vehicle)
  }

  /** The trips of vehicle `v`, in input order (a `groupby` group). */
  function GroupOf(trips: seq<Trip>, v: string): (g: seq<Trip>)
    ensures forall i :: 0 <= i < |g| ==> g[i].vehicle == v
    ensures |g| > 0 <==> v in VehicleIds(trips)
    decreases |trips|
  {
    if |trips| == 0 then []
    else
      var rest := GroupOf(trips[1..], v);
      assert VehicleIds(trips) == [trips[0].vehicle] + VehicleIds(trips[1..]);
      if trips[0].vehicle == v then [trips[0]] + rest else rest
  }

  /** Grouping splits over concatenation, and one trip forms a group of its
      own vehicle only: so a group is the in-order sub-list of exactly the
      vehicle's trips, duplicates included. */
  lemma {:induction false} GroupOfConcat(a: seq<Trip>, b: seq<Trip>, v: string)
    ensures GroupOf(a + b, v) == GroupOf(a, v) + GroupOf(b, v)
    decreases |a|
  {
    if |a| == 0 {
      assert a + b == b;
    } else {
      var x, a' := a[0], a[1..];
      assert a == [x] + a';
      assert a + b == [x] + (a' + b);
      GroupOfConcat(a', b, v);
      GroupOfCons(x, a' + b, v);
      GroupOfCons(x, a', v);
      var h := if x.vehicle == v then [x] else [];
      var ga, gb := GroupOf(a', v), GroupOf(b, v);
      assert GroupOf(a + b, v) == h + (ga + gb);
      assert GroupOf(a, v) == h + ga;
      ConcatAssoc(h, ga, gb);
    }
  }

  lemma GroupOfCons(x: Trip, rest: seq<Trip>, v: string)
    ensures GroupOf([x] + rest, v) == (if x.vehicle == v then [x] else []) + GroupOf(rest, v)
  {
    assert ([x] + rest)[0] == x;
    assert ([x] + rest)[1..] == rest;
  }

  /** A group holds exactly the vehicle's trips. */
  lemma {:induction false} GroupOfMembers(trips: seq<Trip>, v: string)
    ensures forall x :: x in GroupOf(trips, v) <==> x in trips && x.vehicle == v
    decreases |trips|
  {
    if |trips| > 0 {
      GroupOfMembers(trips[1..], v);
      assert forall x :: x in trips <==> x == trips[0] || x in trips[1..];
    }
  }

  /** The groups of `keys`, one after another. */
  function Groups(trips: seq<Trip>, keys: seq<string>): seq<Trip>
    decreases |keys|
  {
    if |keys| == 0 then [] else GroupOf(trips, keys[0]) + Groups(trips, keys[1..])
  }

  /** Taking one more trip in front adds it to the groups exactly once when
      its vehicle is one of the (distinct) keys. */
  lemma {:induction false} GroupsCons(x: Trip, rest: seq<Trip>, keys: seq<string>)
    requires forall i, j :: 0 <= i < j < |keys| ==> keys[i] != keys[j]
    ensures multiset(Groups([x] + rest, keys))
      == (if x.vehicle in keys then multiset{x} else multiset{}) + multiset(Groups(rest, keys))
    decreases |keys|
  {
    if |keys| > 0 {
      var ks := keys[1..];
      DistinctTail(keys);
      GroupsCons(x, rest, ks);
      GroupsStep(x, rest, keys);
      var h := if x.vehicle == keys[0] then [x] else [];
      var g, gs := GroupOf(rest, keys[0]), Groups(rest, ks);
      var there := if x.vehicle in ks then multiset{x} else multiset{};
      assert multiset(Groups([x] + rest, keys)) == multiset(h) + multiset(g) + (there + multiset(gs));
      assert multiset(Groups(rest, keys)) == multiset(g) + multiset(gs);
      if x.vehicle == keys[0] {
        assert multiset(h) + there == multiset{x};
      } else {
        assert multiset(h) + there == there;
      }
    } else {
      assert Groups([x] + rest, keys) == [] == Groups(rest, keys);
    }
  }

  lemma GroupsStep(x: Trip, rest: seq<Trip>, keys: seq<string>)
    requires |keys| > 0
    ensures Groups([x] + rest, keys)
      == ((if x.vehicle == keys[0] then [x] else []) + GroupOf(rest, keys[0])) + Groups([x] + rest, keys[1..])
    ensures Groups(rest, keys) == GroupOf(rest, keys[0]) + Groups(rest, keys[1..])
  {
    GroupOfCons(x, rest, keys[0]);
  }

  lemma DistinctTail<T>(s: seq<T>)
    requires |s| > 0 && forall i, j :: 0 <= i < j < |s| ==> s[i] != s[j]
    ensures forall i, j :: 0 <= i < j < |s[1..]| ==> s[1..][i] != s[1..][j]
    ensures s[0] !in s[1..]
    ensures forall y :: y in s <==> y == s[0] || y in s[1..]
  {
    var t := s[1..];
    forall i, j | 0 <= i < j < |t| ensures t[i] != t[j] {
      assert t[i] == s[i + 1] && t[j] == s[j + 1];
    }
    forall j | 0 <= j < |t| ensures t[j] != s[0] {
      assert t[j] == s[j + 1];
    }
    assert s == [s[0]] + t;
  }

  /** Over distinct keys naming every vehicle, the groups hold each trip
      exactly as often as the input does. */
  lemma {:induction false} GroupsPartition(trips: seq<Trip>, keys: seq<string>)
    requires forall i, j :: 0 <= i < j < |keys| ==> keys[i] != keys[j]
    requires forall i :: 0 <= i < |trips| ==> trips[i].vehicle in keys
    ensures multiset(Groups(trips, keys)) == multiset(trips)
    decreases |trips|
  {
    if |trips| == 0 {
      EmptyGroups(keys);
    } else {
      var rest := trips[1..];
      assert trips == [trips[0]] + rest;
      GroupsPartition(rest, keys);
      GroupsCons(trips[0], rest, keys);
    }
  }

  lemma {:induction false} EmptyGroups(keys: seq<string>)
    ensures Groups([], keys) == []
    decreases |keys|
  {
    if |keys| > 0 {
      EmptyGroups(keys[1..]);
    }
  }

  /** The groups `build_timetable` visits partition its trips. */
  lemma GroupsOfTrips(trips: seq<Trip>)
    ensures multiset(Groups(trips, SortedKeys(VehicleIds(trips)))) == multiset(trips)
  {
    var keys := SortedKeys(VehicleIds(trips));
    StrictlySortedDistinct(keys);
    forall i | 0 <= i < |trips| ensures trips[i].vehicle in keys {
      assert VehicleIds(trips)[i] == trips[i].vehicle;
    }
    GroupsPartition(trips, keys);
  }

  /** The episodes of each key's group, in key order. */
  function StitchGroups(trips: seq<Trip>, keys: seq<string>): (r: seq<Episode>)
    requires forall k :: k in keys ==> k in VehicleIds(trips)
    ensures forall i :: 0 <= i < |r| ==> r[i].vehicle in keys
    decreases |keys|
  {
    if |keys| == 0 then []
    else Stitch(keys[0], GroupOf(trips, keys[0])) + StitchGroups(trips, keys[1..])
  }

  /** The episode records in the order `build_timetable` appends them: vehicles
      in increasing id order, each vehicle's episodes in its trips' order. */
  function Records(trips: seq<Trip>): seq<Episode> {
    StitchGroups(trips, SortedKeys(VehicleIds(trips)))
  }

  /** The episodes of vehicle `v`, in order. */
  function EpisodesOf(eps: seq<Episode>, v: string): seq<Episode>
    decreases |eps|
  {
    if |eps| == 0 then []
    else (if eps[0].vehicle == v then [eps[0]] else []) + EpisodesOf(eps[1..], v)
  }

  lemma {:induction false} EpisodesOfConcat(a: seq<Episode>, b: seq<Episode>, v: string)
    ensures EpisodesOf(a + b, v) == EpisodesOf(a, v) + EpisodesOf(b, v)
    decreases |a|
  {
    if |a| == 0 {
      assert a + b == b;
    } else {
      var h := if a[0].vehicle == v then [a[0]] else [];
      assert (a + b)[0] == a[0];
      assert (a + b)[1..] == a[1..] + b;
      EpisodesOfConcat(a[1..], b, v);
      assert EpisodesOf(a + b, v) == h + (EpisodesOf(a[1..], v) + EpisodesOf(b, v));
      assert EpisodesOf(a, v) == h + EpisodesOf(a[1..], v);
    }
  }

  lemma {:induction false} EpisodesOfUniform(a: seq<Episode>, w: string, v: string)
    requires forall i :: 0 <= i < |a| ==> a[i].vehicle == w
    ensures EpisodesOf(a, v) == if w == v then a else []
    decreases |a|
  {
    if |a| > 0 {
      EpisodesOfUniform(a[1..], w, v);
      if w == v {
        assert a == [a[0]] + a[1..];
      }
    }
  }

  lemma {:induction false} StitchGroupsOfVehicle(trips: seq<Trip>, keys: seq<string>, v: string)
    requires forall k :: k in keys ==> k in VehicleIds(trips)
    requires forall i, j :: 0 <= i < j < |keys| ==> keys[i] != keys[j]
    ensures EpisodesOf(StitchGroups(trips, keys), v)
      == if v in keys then Stitch(v, GroupOf(trips, v)) else []
    decreases |keys|
  {
    if |keys| > 0 {
      var k := keys[0];
      var here := Stitch(k, GroupOf(trips, k));
      var rest := keys[1..];
      DistinctTail(keys);
      StitchGroupsOfVehicle(trips, rest, v);
      EpisodesOfConcat(here, StitchGroups(trips, rest), v);
      EpisodesOfUniform(here, k, v);
    }
  }

  lemma StrictlySortedDistinct(keys: seq<string>)
    requires StrictlySorted(keys)
    ensures forall i, j :: 0 <= i < j < |keys| ==> keys[i] != keys[j]
  {
    forall i, j | 0 <= i < j < |keys| ensures keys[i] != keys[j] {
      StrLtIrreflexive(keys[i]);
    }
  }

  /** Grouping is exact: the records of a vehicle that has trips are the
      stitched episodes of its own trips, in their order, and a vehicle without
      trips has no records. */
  lemma RecordsGrouped(trips: seq<Trip>, v: string)
    ensures EpisodesOf(Records(trips), v)
      == if v in VehicleIds(trips) then Stitch(v, GroupOf(trips, v)) else []
  {
    var keys := SortedKeys(VehicleIds(trips));
    StrictlySortedDistinct(keys);
    StitchGroupsOfVehicle(trips, keys, v);
  }

  // ---------------------------------------------------------------------
  // Ordering by (vehicle id, start time)

  /** The `sort_values(["vehicle_id", "t_start"])` order. */
  predicate KeyLe(a: Episode, b: Episode) {
    StrLt(a.vehicle, b.vehicle) || (a.vehicle == b.vehicle && a.tStart <= b.tStart)
  }

  lemma KeyLeTotal(a: Episode, b: Episode)
    ensures KeyLe(a, b) || KeyLe(b, a)
  {
    if a.vehicle != b.vehicle {
      StrLtTotal(a.vehicle, b.vehicle);
    }
  }

  ghost predicate SortedByKey(eps: seq<Episode>) {
    forall i :: 0 <= i < |eps| - 1 ==> KeyLe(eps[i], eps[i + 1])
  }

  /** Inserts `x` before the first element it does not follow: among equal keys
      the element inserted later stays in front, which keeps `SortByKey` stable. */
  function InsertByKey(x: Episode, r: seq<Episode>): (r': seq<Episode>)
    ensures multiset(r') == multiset(r) + multiset{x}
    ensures |r'| > 0 && (r'[0] == x || (|r| > 0 && r'[0] == r[0]))
    ensures SortedByKey(r) ==> SortedByKey(r')
    decreases |r|
  {
    if |r| == 0 then [x]
    else if KeyLe(x, r[0]) then [x] + r
    else
      KeyLeTotal(x, r[0]);
      var rest := InsertByKey(x, r[1..]);
      assert r == [r[0]] + r[1..];
      [r[0]] + rest
  }

  /** A stable sort by (vehicle id, start time). */
  function SortByKey(eps: seq<Episode>): (r: seq<Episode>)
    ensures multiset(r) == multiset(eps)
    ensures SortedByKey(r)
    decreases |eps|
  {
    if |eps| == 0 then []
    else
      assert eps == [eps[0]] + eps[1..];
      InsertByKey(eps[0], SortByKey(eps[1..]))
  }

  /** Sorting a list that is already in order changes nothing. */
  lemma {:induction false} SortByKeySorted(eps: seq<Episode>)
    requires SortedByKey(eps)
    ensures SortByKey(eps) == eps
    decreases |eps|
  {
    if |eps| > 0 {
      SortByKeySorted(eps[1..]);
      assert eps == [eps[0]] + eps[1..];
    }
  }

  /** The episodes of `eps` whose key is (`w`, `t0`), in order. */
  function WithKey(eps: seq<Episode>, w: string, t0: int): seq<Episode>
    decreases |eps|
  {
    if |eps| == 0 then []
    else (if eps[0].vehicle == w && eps[0].tStart == t0 then [eps[0]] else []) + WithKey(eps[1..], w, t0)
  }

  lemma WithKeyCons(x: Episode, r: seq<Episode>, w: string, t0: int)
    ensures WithKey([x] + r, w, t0) == (if x.vehicle == w && x.tStart == t0 then [x] else []) + WithKey(r, w, t0)
  {
    assert ([x] + r)[0] == x;
    assert ([x] + r)[1..] == r;
  }

  /** Inserting puts `x` in front of every episode with the same key. */
  lemma {:induction false} InsertWithKey(x: Episode, r: seq<Episode>, w: string, t0: int)
    ensures WithKey(InsertByKey(x, r), w, t0)
      == (if x.vehicle == w && x.tStart == t0 then [x] else []) + WithKey(r, w, t0)
    decreases |r|
  {
    if |r| == 0 {
      WithKeyCons(x, [], w, t0);
    } else if KeyLe(x, r[0]) {
      WithKeyCons(x, r, w, t0);
    } else {
      var y, r' := r[0], r[1..];
      assert r == [y] + r';
      InsertWithKey(x, r', w, t0);
      WithKeyCons(y, InsertByKey(x, r'), w, t0);
      WithKeyCons(y, r', w, t0);
      var hx := if x.vehicle == w && x.tStart == t0 then [x] else [];
      var hy := if y.vehicle == w && y.tStart == t0 then [y] else [];
      assert hx == [] || hy == [];
      ConcatAssoc(hy, hx, WithKey(r', w, t0));
      ConcatAssoc(hx, hy, WithKey(r', w, t0));
    }
  }

  /** The sort is stable: episodes with equal (vehicle id, start time) keep
      their relative order. */
  lemma {:induction false} SortByKeyStable(eps: seq<Episode>, w: string, t0: int)
    ensures WithKey(SortByKey(eps), w, t0) == WithKey(eps, w, t0)
    decreases |eps|
  {
    if |eps| > 0 {
      SortByKeyStable(eps[1..], w, t0);
      InsertWithKey(eps[0], SortByKey(eps[1..]), w, t0);
      WithKeyCons(eps[0], eps[1..], w, t0);
      assert eps == [eps[0]] + eps[1..];
    }
  }

  /** `build_timetable` without plans: the stitched records sorted by
      (vehicle id, start time). With no trips at all the trip table has no
      `vehicle_id` column and grouping fails. */
  function BuildTimetable(trips: seq<Trip>): (r: Result<seq<Episode>, string>)
    ensures r.Err? <==> |trips| == 0
    ensures r.Ok? ==> SortedByKey(r.value) && multiset(r.value) == multiset(Records(trips))
    ensures r.Ok? ==> forall w, t0 :: WithKey(r.value, w, t0) == WithKey(Records(trips), w, t0)
  {
    if |trips| == 0 then Err("vehicle_id")
    else
      SortByKeyStableAll(Records(trips));
      Ok(SortByKey(Records(trips)))
  }

  /** Stability for every key at once. */
  lemma SortByKeyStableAll(eps: seq<Episode>)
    ensures forall w, t0 :: WithKey(SortByKey(eps), w, t0) == WithKey(eps, w, t0)
  {
    forall w, t0 ensures WithKey(SortByKey(eps), w, t0) == WithKey(eps, w, t0) {
      SortByKeyStable(eps, w, t0);
    }
  }

  lemma SortedConcat(a: seq<Episode>, b: seq<Episode>)
    requires SortedByKey(a) && SortedByKey(b)
    requires |a| > 0 && |b| > 0 ==> KeyLe(a[|a| - 1], b[0])
    ensures SortedByKey(a + b)
  {
    var ab := a + b;
    forall i | 0 <= i < |ab| - 1 ensures KeyLe(ab[i], ab[i + 1]) {
      if i >= |a| {
        assert ab[i] == b[i - |a|] && ab[i + 1] == b[i - |a| + 1];
      }
    }
  }

  lemma StitchSorted(v: string, trips: seq<Trip>)
    requires |trips| > 0 && WellFormedDay(trips)
    ensures SortedByKey(Stitch(v, trips))
  {
    StitchTiles(v, trips);
  }

  lemma {:induction false} StitchGroupsSorted(trips: seq<Trip>, keys: seq<string>)
    requires forall k :: k in keys ==> k in VehicleIds(trips)
    requires StrictlySorted(keys)
    requires forall k :: k in keys ==> WellFormedDay(GroupOf(trips, k))
    ensures SortedByKey(StitchGroups(trips, keys))
    ensures |keys| > 0 ==>
      (|StitchGroups(trips, keys)| > 0 && StitchGroups(trips, keys)[0].vehicle == keys[0])
    decreases |keys|
  {
    if |keys| > 0 {
      var here := Stitch(keys[0], GroupOf(trips, keys[0]));
      var rest := keys[1..];
      StitchSorted(keys[0], GroupOf(trips, keys[0]));
      StitchGroupsSorted(trips, rest);
      if |rest| > 0 {
        assert StrLt(keys[0], keys[1]);
      }
      SortedConcat(here, StitchGroups(trips, rest));
    }
  }

  /** When every vehicle's trips are in time order, not overlapping and inside
      the day, the final sort leaves the records as stitched: each vehicle's
      episodes appear together, in order, and tile [0, 86400). */
  lemma TimetableOfWellFormed(trips: seq<Trip>, v: string)
    requires |trips| > 0
    requires forall w :: w in VehicleIds(trips) ==> WellFormedDay(GroupOf(trips, w))
    ensures BuildTimetable(trips) == Ok(Records(trips))
    ensures v in VehicleIds(trips) ==>
      Tiles(EpisodesOf(BuildTimetable(trips).value, v), DayStart, DayEnd)
  {
    var keys := SortedKeys(VehicleIds(trips));
    StitchGroupsSorted(trips, keys);
    SortByKeySorted(Records(trips));
    RecordsGrouped(trips, v);
    if v in VehicleIds(trips) {
      StitchTiles(v, GroupOf(trips, v));
    }
  }

  /** The driving episode of each trip, in trip order. */
  function Drives(trips: seq<Trip>): (r: seq<Episode>)
    ensures |r| == |trips|
  {
    seq(|trips|, i requires 0 <= i < |trips| => DriveOf(trips[i].vehicle, trips[i]))
  }

  lemma DrivesConcat(a: seq<Trip>, b: seq<Trip>)
    ensures Drives(a + b) == Drives(a) + Drives(b)
  {
    var l, r := Drives(a + b), Drives(a) + Drives(b);
    forall i | 0 <= i < |l| ensures l[i] == r[i] {
      if i >= |a| {
        assert (a + b)[i] == b[i - |a|];
      }
    }
  }

  /** Taking the first element of `a` out of `b`, where it sits at `j`, leaves
      two sequences that are still permutations of each other. */
  lemma RemoveMatched<T>(a: seq<T>, b: seq<T>, j: int)
    requires |a| > 0 && 0 <= j < |b| && b[j] == a[0] && multiset(a) == multiset(b)
    ensures b == b[..j] + [a[0]] + b[j + 1..] && a == [a[0]] + a[1..]
    ensures multiset(a[1..]) == multiset(b[..j] + b[j + 1..])
  {
    assert b == b[..j] + [a[0]] + b[j + 1..];
    assert a == [a[0]] + a[1..];
    assert multiset(a) == multiset{a[0]} + multiset(a[1..]);
    assert multiset(b) == multiset(b[..j]) + multiset{a[0]} + multiset(b[j + 1..]);
    assert multiset(b[..j] + b[j + 1..]) == multiset(b[..j]) + multiset(b[j + 1..]);
    assert multiset(a[1..]) == multiset(a) - multiset{a[0]};
  }

  /** Reordering the trips reorders their driving episodes alike. */
  lemma {:induction false} DrivesPermutation(a: seq<Trip>, b: seq<Trip>)
    requires multiset(a) == multiset(b)
    ensures multiset(Drives(a)) == multiset(Drives(b))
    decreases |a|
  {
    if |a| == 0 {
      assert |b| == |multiset(b)| == 0;
    } else {
      var x := a[0];
      assert x in multiset(b);
      var j :| 0 <= j < |b| && b[j] == x;
      var b1, b2 := b[..j], b[j + 1..];
      RemoveMatched(a, b, j);
      DrivesPermutation(a[1..], b1 + b2);
      DrivesConcat([x], a[1..]);
      DrivesConcat(b1 + [x], b2);
      DrivesConcat(b1, [x]);
      DrivesConcat(b1, b2);
    }
  }

  /** Reordering episodes reorders their driving episodes alike. */
  lemma {:induction false} DrivingsPermutation(a: seq<Episode>, b: seq<Episode>)
    requires multiset(a) == multiset(b)
    ensures multiset(Drivings(a)) == multiset(Drivings(b))
    decreases |a|
  {
    if |a| == 0 {
      assert |b| == |multiset(b)| == 0;
    } else {
      var x := a[0];
      assert x in multiset(b);
      var j :| 0 <= j < |b| && b[j] == x;
      var b1, b2 := b[..j], b[j + 1..];
      RemoveMatched(a, b, j);
      DrivingsPermutation(a[1..], b1 + b2);
      DrivingsConcat([x], a[1..]);
      DrivingsConcat(b1 + [x], b2);
      DrivingsConcat(b1, [x]);
      DrivingsConcat(b1, b2);
    }
  }

  /** The driving episodes of the records are those of the grouped trips. */
  lemma {:induction false} StitchGroupsDrivings(trips: seq<Trip>, keys: seq<string>)
    requires forall k :: k in keys ==> k in VehicleIds(trips)
    ensures Drivings(StitchGroups(trips, keys)) == Drives(Groups(trips, keys))
    decreases |keys|
  {
    if |keys| > 0 {
      var k := keys[0];
      var g := GroupOf(trips, k);
      StitchGroupsDrivings(trips, keys[1..]);
      DrivingsConcat(Stitch(k, g), StitchGroups(trips, keys[1..]));
      StitchDrivings(k, g);
      assert Drivings(Stitch(k, g)) == Drives(g);
      DrivesConcat(g, Groups(trips, keys[1..]));
    }
  }

  /** Across the whole timetable there is exactly one driving episode per
      trip: the timetable's driving episodes are the trips' driving episodes,
      reordered. */
  lemma TimetableDrivings(trips: seq<Trip>)
    requires |trips| > 0
    ensures multiset(Drivings(BuildTimetable(trips).value)) == multiset(Drives(trips))
    ensures |Drivings(BuildTimetable(trips).value)| == |trips|
  {
    var keys := SortedKeys(VehicleIds(trips));
    DrivingsPermutation(BuildTimetable(trips).value, Records(trips));
    StitchGroupsDrivings(trips, keys);
    GroupsOfTrips(trips);
    DrivesPermutation(Groups(trips, keys), trips);
    assert |multiset(Drivings(BuildTimetable(trips).value))| == |multiset(Drives(trips))|;
  }

  /** The one-trip example: vehicle v1 drives from L1 to L2 between 3600 s and
      3700 s, covering 500 m. */
  lemma OneTripStitchExample()
    ensures Stitch("v1:car", [Trip("v1:car", "v1:car", 3600, 3700, 500.0, "L1", "L2")])
      == [Episode("v1:car", 0, 3600, Parked("L1")),
          Episode("v1:car", 3600, 3700, Driving(500.0)),
          Episode("v1:car", 3700, 86400, Parked("L2"))]
  {
  }
}
